=== FILE: README.md ===
# dataloaden: the batching and caching loader, modelled in Dafny

dataloaden coalesces per-key loads into batched calls of a user-supplied
`fetch` function and caches what it returns. This project models its engine:
the generic loader of `data_loader.go` and the generated `UserLoader` of
`example/generated_user_loader.go`, which is the same engine at `string` keys
and `*User` values. The generated loader adds a configurable error formatter
and multierror aggregation.

The loader is a sequential state machine. Each region the Go code runs under
the loader's mutex is one atomic transition, with one exception: the attach
loops of `LoadAll` (`data_loader.go:129-131`) and of `LoadAllThunk`
(`data_loader.go:145-148`), which take and release the lock once per key, are
one step each here (see "## Left out"). Each spawned
goroutine is a separate step that the environment may take at any time:

- `Attach` is the locked part of `LoadThunk` plus `keyIndex`.
- `Fire` is `startTimer` waking up.
- `End` is the `end` goroutine that a capacity close spawns.
- `Complete` is a caller calling its thunk.
- `PrimeKey` and `ClearKey` are `Prime` and `Clear`.

A batch is named by its index in the list of all batches ever created. The
loader's `batch` pointer is `current`. The `done` channel is "the batch's
result is present". `fetch` is an uninterpreted function from the key list to
a pair of sequences. Nothing ties their lengths to the number of keys.
Errors are modelled by their messages (`None` is a nil error).

Modules:

- `Wrappers` holds `Option`.
- `Errors` has the two aggregation loops, the `errors.Join` loop and the
  multierror loop, each related to a closed form.
- `Decimal` is `strconv.Itoa` with its parse-back partner.
- `FormatErrors` is `defaultFormatErrors`: grouping, counting, ordering and
  layout.
- `Loader` holds the state, `keyIndex`, `LoadThunk`, `startTimer`, `end`,
  thunk resolution, `Prime`, `Clear`, `unsafeSet`, and the two loops of
  `LoadAll`.
- `Machine` has the step relation and the invariant `Valid`. It proves that
  every reachable state keeps `Valid`, and it defines `Load` and `LoadAll`
  over an environment schedule.
- `Batching` has what the two loops of `LoadAll` do to the loader as a whole:
  keys reach the batches in input order, and collecting caches exactly the
  keys of the thunks that succeed.
- `Properties` has the guarantees derived from the invariant and the runs of
  the repository's tests.
- `UserLoader` is the generated loader's constructor and thunk.

Three points of the code that the model follows closely:

- `startTimer` calls `end`, and so `fetch`, while holding the lock
  (`data_loader.go:216-226`). The capacity path runs `end` on its own
  goroutine without the lock (`data_loader.go:208`). Both are atomic steps
  here, so the model covers either.
- The `closing` flag is set only on the capacity path
  (`data_loader.go:204-210`). The timer path detaches the batch without
  setting it. `Batch.closing` follows the code.
- The code reads `data[pos]` only when `pos < len(data)`
  (`data_loader.go:101`) and scans the error slice whatever its length
  (`data_loader.go:106`). The model assumes nothing about these lengths.

## Model

| member | source | states |
|---|---|---|
| Errors.NonNil | data_loader.go:106-109 | the non-nil messages are, with multiplicity, exactly the non-nil entries of the error slice; there are none iff every entry is nil |
| Errors.JoinAllNonNil | data_loader.go:105-114 | the generic loop's joined error is nil iff every entry is nil, and otherwise joins every non-nil message in slice order |
| Errors.AppendAllNonNil | example/generated_user_loader.go:96-106 | the generated loop gives nil for no non-nil error, keeps a single one as-is, and builds one multierror of all of them, in order, for two or more |
| Decimal.Itoa | example/generated_user_loader.go:211 | the count is printed as a nonempty digit string without a leading zero |
| Decimal.AtoiItoa | example/generated_user_loader.go:211 | reading back a printed count gives the count |
| Decimal.ItoaAtoi | example/generated_user_loader.go:211 | every canonical digit string is the printing of its value, so the printing is a bijection onto canonical strings |
| FormatErrors.BumpSpec | example/generated_user_loader.go:187-189 | `countsByErrors[m]++` adds one occurrence of `m` and of nothing else, and adds `m` to the grouped messages |
| FormatErrors.BumpDistinct | example/generated_user_loader.go:187-189 | incrementing keeps one group per message |
| FormatErrors.BumpPositive | example/generated_user_loader.go:187-189 | incrementing keeps every count at least one |
| FormatErrors.TallySpec | example/generated_user_loader.go:186-202 | the counting loop yields one group per distinct message, each message's count equals its number of occurrences in the input, and the counts sum to the number of errors |
| FormatErrors.InsertSpec | example/generated_user_loader.go:204-206 | inserting a group adds exactly that group, its message and its count |
| FormatErrors.InsertSorted | example/generated_user_loader.go:204-206 | inserting into a list ordered by non-increasing count keeps it ordered |
| FormatErrors.InsertDistinct | example/generated_user_loader.go:204-206 | inserting a group with a new message keeps the messages distinct |
| FormatErrors.SortSpec | example/generated_user_loader.go:204-206 | sorting is a permutation of the groups, so it keeps the messages and the total |
| FormatErrors.SortSorted | example/generated_user_loader.go:204-206 | sorting yields non-increasing order of count |
| FormatErrors.SortDistinct | example/generated_user_loader.go:204-206 | sorting keeps the messages distinct |
| FormatErrors.GroupsValid | example/generated_user_loader.go:186-206 | the printed groups are an admissible grouping (distinct messages, true counts, every message present, non-increasing counts), a permutation of the tally, with counts summing to the number of errors |
| FormatErrors.ValidGroupingUnique | example/generated_user_loader.go:196-206 | any two admissible groupings are permutations of each other, so only the order of equal counts is left open |
| FormatErrors.DefaultFormatErrorsLayout | example/generated_user_loader.go:181-218 | one error renders as its own message; otherwise the text is the header with the error count, one ` * <count> <msg>` line per group of an admissible grouping, and a trailing newline |
| Loader.IndexOf | data_loader.go:192-196 | the scan finds a key iff it is in the batch, at its first position |
| Loader.UnsafeSet | data_loader.go:182-187 | the cache maps the key to the value afterwards; every other entry and all batch state stay as they were |
| Loader.KeyIndex | data_loader.go:191-213 | a key already in the batch keeps its position and changes nothing; a new key is appended at position `len(keys)`, the first key starts the timer, and the append that reaches `maxBatch` closes and detaches the batch, at most once |
| Loader.LoadThunk | data_loader.go:83-95 | a cached key yields the cached value and leaves the state unchanged; otherwise the thunk names the current batch (or a fresh one when there is none) and the position holding its key |
| Loader.Dispatch | data_loader.go:229-232 | `end` stores `fetch` of exactly the batch's keys, records one fetch call, and touches no other batch |
| Loader.TimerFire | data_loader.go:215-227 | a timer on a capacity-closed batch does nothing but expire; otherwise it detaches the batch and fetches it once |
| Loader.ReadPosition | data_loader.go:100-103 | a thunk reads the entry at its position, or nil when the data slice is too short |
| Loader.Resolve | data_loader.go:97-121 | a waiting thunk returns its entry; the error is non-nil iff some entry of the batch's error slice is, and then the cache is untouched; otherwise the value is cached under the key |
| Loader.Prime | data_loader.go:162-173 | returns true iff the key was absent and then stores the value; a present key gives false and no change |
| Loader.Clear | data_loader.go:176-180 | removes exactly that key from the cache and changes nothing else |
| Loader.AttachAll | data_loader.go:126-131 | one thunk per key in input order; cached keys get their cached value, the rest wait on their own key; the cache is untouched (the order in which keys reach the batches is `Batching.AttachAllOrdered` and `Batching.AttachAllOneBatch`) |
| Loader.ResolveAll | data_loader.go:133-138 | the i-th value and error are those of the i-th thunk, and collecting leaves the batches alone |
| Batching.LoadThunkShape | data_loader.go:83-95 | a miss grows only its own batch (a fresh one when there is none), by its key at the end unless the key is already there, and `current` afterwards is that batch or nil; with no limit it stays that batch |
| Batching.AttachAllPlaced | data_loader.go:129-131 | after the attach loop every waiting thunk points at a position of its batch holding its key, no later than the current batch, and every batch holds only given or pre-existing keys |
| Batching.AttachAllOrdered | data_loader.go:124-131 | keys reach the batches in input order: a key seen for the first time waits after every earlier waiting key, in a later batch or further along the same one |
| Batching.AttachAllOneBatch | data_loader.go:124-131 | with no limit every waiting key joins one batch, the current one or the one the first miss creates |
| Batching.ResolveAllCaches | data_loader.go:135-137 | every thunk that succeeds leaves its key in the cache after collecting |
| Batching.ResolveAllFrames | data_loader.go:135-137 | a key no succeeding thunk waits on keeps its cache entry, or its absence |
| Machine.NewDataLoaderValid | data_loader.go:38-44 | a new loader satisfies the invariant |
| Machine.ExtendsKeepsThunk | data_loader.go:94-95 | a thunk's captured batch and position keep pointing at its key in every later state |
| Machine.LoadThunkValid | data_loader.go:191-213 | attaching keeps keys distinct, keeps every batch within `maxBatch`, keeps exactly the current batch open, and only appends to the current batch |
| Machine.TimerFireValid | data_loader.go:215-227 | a timer firing keeps the invariant; when it dispatches, the batch was the current one and had not been fetched |
| Machine.DispatchValid | data_loader.go:229-232 | a capacity-closed batch's `end` keeps the invariant and is that batch's first fetch |
| Machine.NextValid | data_loader.go:46-73 | every enabled step keeps the invariant and only extends the state |
| Machine.RunValid | data_loader.go:46-73 | every schedule of enabled steps keeps the invariant and only extends the state |
| Machine.ReachableValid | data_loader.go:38-73 | every state reachable from a new loader satisfies the invariant |
| Machine.Load | data_loader.go:76-78 | a cached key is answered with its value and no error, and the load changes nothing |
| Machine.LoadAll | data_loader.go:126-139 | one value and one error per key; a cached key gets its cached value and no error (the cache effect of collecting is `Batching.ResolveAllCaches` and `Batching.ResolveAllFrames`) |
| Properties.AtMostOneOpenBatch | data_loader.go:59-61 | at most one batch accepts keys, and it is the current one |
| Properties.FetchCallsWellFormed | data_loader.go:204-210 | no batch is fetched twice, and each fetch call gets between 1 and `maxBatch` pairwise distinct keys |
| Properties.StepFetchesAtMostOnce | data_loader.go:215-231 | only a timer on a batch not closed for capacity, or a capacity close's `end`, calls `fetch`; the call is that batch's first, and no other step fetches |
| Properties.EveryBatchDispatchable | data_loader.go:198-210 | a batch not yet fetched always has its timer or its `end` still pending |
| Properties.DetachedBatchFrozen | data_loader.go:204-210 | a detached batch never receives another key and never becomes current again |
| Properties.ResolveAligned | data_loader.go:94-103 | a waiting thunk's value is `fetch`'s entry at the position where its own key was passed |
| Properties.ThunkAlignedAfterRun | data_loader.go:94-103 | a thunk from `LoadThunk` stays aligned with its key under any later schedule |
| Properties.CacheHitAfterSuccess | data_loader.go:116-118 | after a successful resolve, loading the key is a cache hit returning that value with no batch |
| Properties.BatchErrorShared | data_loader.go:105-114 | all thunks of a batch get the same error, non-nil iff some entry is; on error none of them writes the cache |
| Properties.PrimeThenLoad | data_loader.go:159-173 | priming an absent key makes the next load a hit on the primed value; priming it again returns false and changes nothing |
| Properties.ClearThenLoad | data_loader.go:175-180 | after `Clear` the key misses and joins a batch again, while other cached keys still hit |
| Properties.AttachAllValid | data_loader.go:129-131 | attaching all keys keeps the invariant and yields valid thunks |
| Properties.ResolveAllAligned | data_loader.go:135-137 | each collected value is `fetch`'s entry at its thunk's position |
| Properties.LoadAllAligned | data_loader.go:126-139 | for every schedule, the i-th value of `LoadAll` is `fetch`'s entry at the position where `keys[i]` was passed |
| Properties.LoadAligned | data_loader.go:76-78 | `Load` of an uncached key returns `fetch`'s entry at its key's position, whatever the schedule |
| Properties.CapacitySplitScenario | data_loader_test.go:62-95 | with cap 2, keys 0, 1, 2 make batches `[0, 1]` (closed) and `[2]`, fetched once each |
| Properties.AttachAllSplitScenario | data_loader.go:124-131 | with cap 2, one attach loop over 0, 1, 2 fills batch 0 with `[0, 1]`, which closes, and starts batch 1 with `[2]`, which is current; the thunks wait at (0, 0), (0, 1) and (1, 0) |
| Properties.SingleKeyScenario | data_loader_test.go:12-37 | one key is fetched once as `[0]` and returns its entry; the scenario also states that a second load then hits the cache, which the test does not exercise and which follows from `data_loader.go:86-90` and `116-118` |
| Properties.FailingFetchScenario | data_loader_test.go:133-149 | a failing fetch yields a nil value with a non-nil error and caches nothing |
| UserLoader.NewUserLoader | example/generated_user_loader.go:18-29 | a missing formatter is replaced by `defaultFormatErrors`; a supplied one is kept |
| UserLoader.ResolveUser | example/generated_user_loader.go:88-119 | the value is the batch's entry at the thunk's position; with no non-nil error it is cached under the key, otherwise the loader is unchanged; one error is returned as-is; several become a multierror whose text is the loader's formatter applied to them |
| UserLoader.ResolveUserAgrees | example/generated_user_loader.go:88-119 | the generated thunk returns the same value, has the same cache effect and fails exactly when the generic one does |
| UserLoader.DefaultMultiErrorText | example/generated_user_loader.go:107-110 | with no configured formatter, a batch with several errors reports the default layout over them |

Apart from the error loop of its thunk, the generated loader's `LoadThunk`,
`LoadAll`, `LoadAllThunk`, `Prime`, `Clear`, `unsafeSet`, `keyIndex`,
`startTimer` and `end` (`example/generated_user_loader.go:74-95`, `112-178`,
`220-270`) follow those of `data_loader.go` line for line. They are modelled
by the same `Loader` members at `State<string, User>`. The thunk's error loop
(`example/generated_user_loader.go:96-111`) aggregates with
`multierror.Append` and sets `ErrorFormat` instead of calling `errors.Join`;
it is modelled by `UserLoader.ResolveUser`.

## Left out

- Goroutines, `sync.Mutex`, `time.Sleep` and the wait duration: each locked region is one step, and a timer may fire at any time after its batch's first key. How long a batch stays open is not modelled.
- The `done` channel's blocking: a thunk can be resolved only once its batch has a result (`Loader.Resolvable`). `Load` and `LoadAll` take the environment's schedule as a parameter.
- `LoadAll` interleaving: the environment's schedule runs before the collecting loop. In Go other steps may interleave between the thunk calls (`data_loader.go:135-137`), since each call blocks on its own batch; only the final state of that interleaving is modelled. Values and errors are unaffected, because a batch's stored result never changes.
- Loader.AttachAll: the attach loops of `LoadAll` and `LoadAllThunk` (`data_loader.go:129-131`, `145-148`) run as one step with no interleaving. In Go another caller's `Clear`, `Prime`, a thunk's cache write or a timer may run between two keys' attaches, so a key cached at entry may end up waiting on a batch, an uncached one may become a cache hit, and the keys may split across more batches. The cached-key clause is about the state at entry under that atomicity. Per-key alignment under any interleaving is `Properties.ThunkAlignedAfterRun`.
- Machine.LoadAll: inherits the atomic attach loop of `Loader.AttachAll`; the schedule runs only after all keys are attached, so "a cached key gets its cached value" is stated for that interleaving only.
- Properties.LoadAllAligned: "`keys[i]` not cached at entry" and the alignment it implies are stated for the atomic attach loop; for a key attached under any interleaving, `Properties.ThunkAlignedAfterRun` gives the same alignment.
- `LoadAllThunk` is `AttachAll` with `ResolveAll` deferred; it has no member of its own.
- Pointers: values are compared and stored by value, so the defensive copy in `Prime` has nothing to do. `Prime` with a nil pointer panics in Go; the model's `Prime` takes a value.
- `errors.Join` nests its results and prints messages joined by newlines. `multierror.Append` flattens nested multierrors. Both are modelled as the flat list of non-nil messages. The text of a joined error is not modelled.
- A custom formatter receives `[]error`. The model passes it the messages.
- Negative `maxBatch` is excluded by its type (`nat`).
- `pkg/generator/template.go` is the code-generation template for the generated file; its logic is the generated file's. `dataloader/data_loader.go` only declares the interface. `example/user.go` only declares `User`. None of these is part of this model.
- Errors.NonNil: states the non-nil messages as a multiset, not their order. The order is fixed by its definition, which `JoinAllNonNil` and `AppendAllNonNil` build on.

=== FILE: batching.dfy ===
/**
 What the two loops of `LoadAll` do to the loader as a whole: the attach loop
 hands keys to batches in input order, splitting them at `maxBatch`, and the
 collecting loop caches the key of every thunk that succeeds and nothing else.
 */
module Batching {
  import opened Wrappers
  import opened Errors
  import opened Loader

  /** The batch-level effect of one `LoadThunk` miss: which batch grows, by what, and where `current` ends up. */
  lemma LoadThunkShape<K, V>(s: State<K, V>, key: K)
    requires s.WellFormed() && key !in s.cache
    ensures var r := LoadThunk(s, key);
      var id := r.thunk.batch;
      var before := if s.current.Some? then s.batches[id].keys else [];
      && |r.state.batches| == |s.batches| + (if s.current.None? then 1 else 0)
      && (forall b :: 0 <= b < |s.batches| && b != id ==> r.state.batches[b] == s.batches[b])
      && (key in before ==> r.state.batches[id].keys == before)
      && (key !in before ==> r.state.batches[id].keys == before + [key] && r.thunk.pos == |before|)
      && (r.state.current.Some? ==> r.state.current.value == id)
      && (s.maxBatch == 0 ==> r.state.current == Some(id))
  {
    var s1 :=
      if s.current.None?
      then s.(batches := s.batches + [Batch([], false, false, None)], current := Some(|s.batches|))
      else s;
    var id := s1.current.value;
    var ix := KeyIndex(s1, id, key);
    assert LoadThunk(s, key) == Attached(ix.state, Waiting(id, ix.pos, key));
    assert s1.batches[id].keys == if s.current.Some? then s.batches[id].keys else [];
  }

  /** The thunk of a miss sits at a position of its batch that holds its key. */
  ghost predicate Placed<K, V>(st: State<K, V>, t: Thunk<K, V>, key: K) {
    t.Waiting? ==>
      && t.batch < |st.batches|
      && t.pos < |st.batches[t.batch].keys|
      && st.batches[t.batch].keys[t.pos] == key
      && (st.current.Some? ==> t.batch <= st.current.value)
  }

  /** Every key a batch holds after attaching `keys` from `s` was either given in `keys` or already there in `s`. */
  ghost predicate Grown<K, V>(s: State<K, V>, keys: seq<K>, st: State<K, V>) {
    && |s.batches| <= |st.batches|
    && forall b, k :: 0 <= b < |st.batches| && 0 <= k < |st.batches[b].keys| ==>
         st.batches[b].keys[k] in keys
         || (b < |s.batches| && k < |s.batches[b].keys| && st.batches[b].keys[k] == s.batches[b].keys[k])
  }

  /** Neither given earlier in the loop nor held by any batch on entry. */
  ghost predicate FirstSeen<K, V>(s: State<K, V>, keys: seq<K>, j: nat)
    requires j < |keys|
  {
    && keys[j] !in keys[..j]
    && forall b :: 0 <= b < |s.batches| ==> keys[j] !in s.batches[b].keys
  }

  /** `t` was handed to `fetch`'s batches before `u`: an earlier batch, or earlier in the same one. */
  predicate Before<K, V>(t: Thunk<K, V>, u: Thunk<K, V>)
    requires t.Waiting? && u.Waiting?
  {
    t.batch < u.batch || (t.batch == u.batch && t.pos < u.pos)
  }

  /** A later `LoadThunk` keeps an earlier thunk placed: batches only grow at their ends. */
  lemma PlacedStep<K, V>(st: State<K, V>, key: K, t: Thunk<K, V>, x: K)
    requires st.WellFormed() && Placed(st, t, x)
    ensures Placed(LoadThunk(st, key).state, t, x)
  {
    if key !in st.cache && t.Waiting? {
      LoadThunkShape(st, key);
      var r := LoadThunk(st, key);
      var id := r.thunk.batch;
      if t.batch == id {
        var before := if st.current.Some? then st.batches[id].keys else [];
        assert t.pos < |before|;
        assert r.state.batches[id].keys[t.pos] == before[t.pos];
      }
    }
  }

  /** The thunk `LoadThunk` returns is placed at its own key. */
  lemma PlacedNew<K, V>(st: State<K, V>, key: K)
    requires st.WellFormed()
    ensures Placed(LoadThunk(st, key).state, LoadThunk(st, key).thunk, key)
  {
    if key !in st.cache {
      LoadThunkShape(st, key);
    }
  }

  /** A `LoadThunk` of `key` adds at most `key` to the batches. */
  lemma GrownStep<K, V>(s: State<K, V>, init: seq<K>, key: K, st: State<K, V>)
    requires st.WellFormed() && Grown(s, init, st)
    ensures Grown(s, init + [key], LoadThunk(st, key).state)
  {
    var keys := init + [key];
    var r := LoadThunk(st, key);
    forall x | x in init
      ensures x in keys
    {
    }
    if key !in st.cache {
      LoadThunkShape(st, key);
      var id := r.thunk.batch;
      var before := if st.current.Some? then st.batches[id].keys else [];
      forall bi, k | 0 <= bi < |r.state.batches| && 0 <= k < |r.state.batches[bi].keys|
        ensures r.state.batches[bi].keys[k] in keys
          || (bi < |s.batches| && k < |s.batches[bi].keys| && r.state.batches[bi].keys[k] == s.batches[bi].keys[k])
      {
        if bi == id && k == |before| {
          assert r.state.batches[bi].keys[k] == key;
        } else {
          assert bi < |st.batches| && k < |st.batches[bi].keys|;
          assert r.state.batches[bi].keys[k] == st.batches[bi].keys[k];
        }
      }
    }
  }

  /** After the attach loop every thunk is placed at its key, and the batches hold only given or pre-existing keys. */
  lemma {:induction false} AttachAllPlaced<K, V>(s: State<K, V>, keys: seq<K>)
    requires s.WellFormed()
    ensures var r := AttachAll(s, keys);
      && Grown(s, keys, r.state)
      && forall i :: 0 <= i < |keys| ==> Placed(r.state, r.thunks[i], keys[i])
    decreases |keys|
  {
    if |keys| == 0 {
      assert Grown(s, keys, s);
    } else {
      var init, key := keys[..|keys| - 1], keys[|keys| - 1];
      assert keys == init + [key];
      var a := AttachAll(s, init);
      AttachAllPlaced(s, init);
      var r := AttachAll(s, keys);
      assert r.state == LoadThunk(a.state, key).state;
      assert r.thunks == a.thunks + [LoadThunk(a.state, key).thunk];
      GrownStep(s, init, key, a.state);
      PlacedNew(a.state, key);
      forall i | 0 <= i < |init|
        ensures Placed(r.state, r.thunks[i], keys[i])
      {
        assert r.thunks[i] == a.thunks[i] && keys[i] == init[i];
        PlacedStep(a.state, key, a.thunks[i], init[i]);
      }
    }
  }

  /** A key new to the loop and to the entry state is placed after every thunk already placed. */
  lemma BeforeNew<K, V>(s: State<K, V>, init: seq<K>, st: State<K, V>, key: K, t: Thunk<K, V>, x: K)
    requires st.WellFormed() && Grown(s, init, st) && Placed(st, t, x) && t.Waiting?
    requires key !in st.cache && key !in init
    requires forall b :: 0 <= b < |s.batches| ==> key !in s.batches[b].keys
    ensures LoadThunk(st, key).thunk.Waiting? && Before(t, LoadThunk(st, key).thunk)
  {
    LoadThunkShape(st, key);
    var id := LoadThunk(st, key).thunk.batch;
    var before := if st.current.Some? then st.batches[id].keys else [];
    forall p | 0 <= p < |before|
      ensures before[p] != key
    {
      assert before[p] == st.batches[id].keys[p];
    }
  }

  /** Each first-seen key's thunk comes after every earlier waiting thunk. */
  ghost predicate Ordered<K, V>(s: State<K, V>, keys: seq<K>, thunks: seq<Thunk<K, V>>) {
    |thunks| == |keys| &&
    forall i, j :: 0 <= i < j < |keys| && thunks[i].Waiting? && thunks[j].Waiting? && FirstSeen(s, keys, j) ==>
      Before(thunks[i], thunks[j])
  }

  lemma OrderedExtend<K, V>(s: State<K, V>, init: seq<K>, key: K, ts: seq<Thunk<K, V>>, t: Thunk<K, V>)
    requires Ordered(s, init, ts)
    requires FirstSeen(s, init + [key], |init|) && t.Waiting? ==>
      forall i :: 0 <= i < |ts| && ts[i].Waiting? ==> Before(ts[i], t)
    ensures Ordered(s, init + [key], ts + [t])
  {
    var keys, thunks := init + [key], ts + [t];
    forall i, j | 0 <= i < j < |keys| && thunks[i].Waiting? && thunks[j].Waiting? && FirstSeen(s, keys, j)
      ensures Before(thunks[i], thunks[j])
    {
      if j < |init| {
        assert keys[..j] == init[..j] && keys[j] == init[j];
        assert FirstSeen(s, init, j);
      }
    }
  }

  /**
   Keys reach the batches in input order: a key seen for the first time is
   placed after every earlier key that waits on a batch, in a later batch or
   further along the same one.
   */
  lemma {:induction false} AttachAllOrdered<K, V>(s: State<K, V>, keys: seq<K>)
    requires s.WellFormed()
    ensures Ordered(s, keys, AttachAll(s, keys).thunks)
    decreases |keys|
  {
    if |keys| > 0 {
      var n := |keys| - 1;
      var init, key := keys[..n], keys[n];
      assert keys == init + [key];
      var a := AttachAll(s, init);
      AttachAllOrdered(s, init);
      AttachAllPlaced(s, init);
      var b := LoadThunk(a.state, key);
      assert AttachAll(s, keys).thunks == a.thunks + [b.thunk];
      if FirstSeen(s, keys, n) && b.thunk.Waiting? {
        assert init == keys[..n];
        forall i | 0 <= i < |a.thunks| && a.thunks[i].Waiting?
          ensures Before(a.thunks[i], b.thunk)
        {
          BeforeNew(s, init, a.state, key, a.thunks[i], init[i]);
        }
      }
      OrderedExtend(s, init, key, a.thunks, b.thunk);
    }
  }

  /** With no capacity limit, every key that waits joins the same batch: the current one, or the one the first miss creates. */
  lemma {:induction false} AttachAllOneBatch<K, V>(s: State<K, V>, keys: seq<K>)
    requires s.WellFormed() && s.maxBatch == 0
    ensures var r := AttachAll(s, keys);
      var target := if s.current.Some? then s.current.value else |s.batches|;
      && (forall i :: 0 <= i < |keys| && r.thunks[i].Waiting? ==> r.thunks[i].batch == target)
      && (r.state.current.Some? ==> r.state.current.value == target)
      && (r.state.current.None? ==> s.current.None? && |r.state.batches| == |s.batches|)
    decreases |keys|
  {
    if |keys| > 0 {
      var init, key := keys[..|keys| - 1], keys[|keys| - 1];
      var a := AttachAll(s, init);
      AttachAllOneBatch(s, init);
      var r := AttachAll(s, keys);
      var b := LoadThunk(a.state, key);
      assert r == AttachedAll(b.state, a.thunks + [b.thunk]);
      if key !in a.state.cache {
        LoadThunkShape(a.state, key);
      }
      forall i | 0 <= i < |keys| - 1
        ensures r.thunks[i] == a.thunks[i]
      {
      }
    }
  }

  /** One more round of the attach loop. */
  lemma AttachAllSnoc<K, V>(s: State<K, V>, keys: seq<K>, key: K)
    requires s.WellFormed()
    ensures var a := AttachAll(s, keys);
      var b := LoadThunk(a.state, key);
      AttachAll(s, keys + [key]) == AttachedAll(b.state, a.thunks + [b.thunk])
  {
    assert (keys + [key])[..|keys|] == keys;
  }

  /** The thunk succeeds: it waited on a batch whose errors are all nil. */
  predicate Succeeds<K(==), V>(s: State<K, V>, t: Thunk<K, V>)
    requires Resolvable(s, t)
  {
    t.Waiting? && ThunkError(s, t).None?
  }

  /** Every thunk that succeeds leaves its key in the cache after collecting. */
  lemma {:induction false} ResolveAllCaches<K, V>(s: State<K, V>, thunks: seq<Thunk<K, V>>)
    requires forall i :: 0 <= i < |thunks| ==> Resolvable(s, thunks[i])
    ensures forall i :: 0 <= i < |thunks| && Succeeds(s, thunks[i]) ==> thunks[i].key in ResolveAll(s, thunks).state.cache
    decreases |thunks|
  {
    if |thunks| > 0 {
      var init, t := thunks[..|thunks| - 1], thunks[|thunks| - 1];
      var a := ResolveAll(s, init);
      ResolveAllCaches(s, init);
      assert Resolvable(a.state, t);
      var b := Resolve(a.state, t);
      assert ResolveAll(s, thunks).state == b.state;
      if t.Waiting? {
        JoinAllNonNil(a.state.batches[t.batch].result.value.errors);
      }
      forall i | 0 <= i < |thunks| && Succeeds(s, thunks[i])
        ensures thunks[i].key in b.state.cache
      {
        if i < |init| {
          assert thunks[i] == init[i];
        }
      }
    }
  }

  /** A key no succeeding thunk waits on keeps its cache entry, or its absence. */
  lemma {:induction false} ResolveAllFrames<K, V>(s: State<K, V>, thunks: seq<Thunk<K, V>>, k: K)
    requires forall i :: 0 <= i < |thunks| ==> Resolvable(s, thunks[i])
    requires forall i :: 0 <= i < |thunks| && Succeeds(s, thunks[i]) ==> thunks[i].key != k
    ensures var c := ResolveAll(s, thunks).state.cache;
      && (k in c <==> k in s.cache)
      && (k in s.cache ==> c[k] == s.cache[k])
    decreases |thunks|
  {
    if |thunks| > 0 {
      var init, t := thunks[..|thunks| - 1], thunks[|thunks| - 1];
      var a := ResolveAll(s, init);
      forall i | 0 <= i < |init| && Succeeds(s, init[i])
        ensures init[i].key != k
      {
        assert init[i] == thunks[i];
      }
      ResolveAllFrames(s, init, k);
      assert Resolvable(a.state, t);
      var b := Resolve(a.state, t);
      assert ResolveAll(s, thunks).state == b.state;
      if t.Waiting? {
        JoinAllNonNil(a.state.batches[t.batch].result.value.errors);
        assert Succeeds(s, thunks[|thunks| - 1]) ==> t.key != k;
      }
    }
  }
}

=== FILE: decimal.dfy ===
/** Decimal rendering of non-negative integers, as `strconv.Itoa` and `%d` print them. */
module Decimal {

  predicate IsDigit(c: char) {
    '0' <= c <= '9'
  }

  ghost predicate AllDigits(s: string) {
    forall i :: 0 <= i < |s| ==> IsDigit(s[i])
  }

  function DigitChar(d: nat): (c: char)
    requires d < 10
    ensures IsDigit(c)
    ensures c as int - '0' as int == d
  {
    (d + '0' as int) as char
  }

  /** The decimal digits of `n`, most significant first, with no leading zero. */
  function Itoa(n: nat): (s: string)
    ensures |s| >= 1
    ensures AllDigits(s)
    ensures |s| > 1 ==> s[0] != '0'
    ensures n > 0 ==> s[0] != '0'
  {
    if n < 10 then [DigitChar(n)] else Itoa(n / 10) + [DigitChar(n % 10)]
  }

  /** The value of a string of decimal digits. */
  function Atoi(s: string): nat
    requires AllDigits(s)
  {
    if |s| == 0 then 0 else Atoi(s[..|s| - 1]) * 10 + (s[|s| - 1] as int - '0' as int)
  }

  /** Reading back what `Itoa` printed gives the number. */
  lemma {:induction false} AtoiItoa(n: nat)
    ensures Atoi(Itoa(n)) == n
  {
    if n >= 10 {
      var s := Itoa(n);
      assert s[..|s| - 1] == Itoa(n / 10);
      AtoiItoa(n / 10);
    }
  }

  lemma {:induction false} AtoiPositive(s: string)
    requires AllDigits(s) && |s| >= 1 && s[0] != '0'
    ensures Atoi(s) >= 1
  {
    if |s| > 1 {
      AtoiPositive(s[..|s| - 1]);
    }
  }

  /** Every canonical digit string is what `Itoa` prints for its value. */
  lemma {:induction false} ItoaAtoi(s: string)
    requires AllDigits(s) && |s| >= 1
    requires |s| > 1 ==> s[0] != '0'
    ensures Itoa(Atoi(s)) == s
  {
    var init, c := s[..|s| - 1], s[|s| - 1];
    var d := c as int - '0' as int;
    assert 0 <= d < 10 && DigitChar(d) == c;
    if |s| == 1 {
      assert Atoi(s) == d;
    } else {
      var a := Atoi(init);
      AtoiPositive(init);
      ItoaAtoi(init);
      assert Atoi(s) == a * 10 + d;
      assert (a * 10 + d) / 10 == a && (a * 10 + d) % 10 == d;
      assert s == init + [c];
    }
  }
}

=== FILE: errors.dfy ===
/**
 Error values as the loaders see them. A Go `error` is modelled by its message:
 an `ErrorSlot` is `None` for a nil error and `Some(m)` for an error whose
 `Error()` is `m`. The two aggregation loops of the loaders are modelled as
 left-to-right folds, exactly as they walk the batch's error slice, and each
 is related to a closed form over the non-nil messages.
 */
module Errors {
  import opened Wrappers

  type ErrorSlot = Option<string>

  /** True when every entry of the error slice is nil. */
  ghost predicate AllNil(errs: seq<ErrorSlot>) {
    forall i :: 0 <= i < |errs| ==> errs[i].None?
  }

  /** The messages of the non-nil entries, in slice order. */
  function NonNil(errs: seq<ErrorSlot>): (r: seq<string>)
    ensures |r| <= |errs|
    ensures |r| == 0 <==> AllNil(errs)
    ensures forall m :: multiset(r)[m] == multiset(errs)[Some(m)]
    decreases |errs|
  {
    if |errs| == 0 then []
    else
      var init, last := errs[..|errs| - 1], errs[|errs| - 1];
      assert errs == init + [last];
      NonNil(init) + (if last.Some? then [last.value] else [])
  }

  /** The value built by `errors.Join`, flattened to the messages it joins. */
  datatype Joined = Joined(errors: seq<string>)

  /**
   The generic loader's loop: nil entries are skipped and every other entry is
   joined onto the accumulator, which starts out nil.
   */
  function JoinAll(errs: seq<ErrorSlot>): Option<Joined>
    decreases |errs|
  {
    if |errs| == 0 then None
    else
      var acc, last := JoinAll(errs[..|errs| - 1]), errs[|errs| - 1];
      if last.None? then acc
      else Some(Joined(acc.GetOr(Joined([])).errors + [last.value]))
  }

  /** The joined error is nil exactly when every entry is nil, and otherwise holds every non-nil message in order. */
  lemma {:induction false} JoinAllNonNil(errs: seq<ErrorSlot>)
    ensures JoinAll(errs).None? <==> AllNil(errs)
    ensures JoinAll(errs) == if |NonNil(errs)| == 0 then None else Some(Joined(NonNil(errs)))
    decreases |errs|
  {
    if |errs| > 0 {
      var init, last := errs[..|errs| - 1], errs[|errs| - 1];
      JoinAllNonNil(init);
      var n := NonNil(init);
      if last.Some? {
        assert NonNil(errs) == n + [last.value];
        assert JoinAll(errs) == Some(Joined(n + [last.value]));
      } else {
        assert NonNil(errs) == n;
      }
    }
  }

  /** The value built by the generated loader: one error kept as-is, or a `*multierror.Error`. */
  datatype Aggregate = Single(error: string) | Multi(errors: seq<string>)

  /** One iteration of the generated loader's loop on a non-nil error `m`. */
  function AppendTo(acc: Option<Aggregate>, m: string): Aggregate {
    match acc
    case None => Single(m)
    case Some(Single(e)) => Multi([e, m])
    case Some(Multi(es)) => Multi(es + [m])
  }

  /** The generated loader's loop over the batch's error slice. */
  function AppendAll(errs: seq<ErrorSlot>): Option<Aggregate>
    decreases |errs|
  {
    if |errs| == 0 then None
    else
      var acc, last := AppendAll(errs[..|errs| - 1]), errs[|errs| - 1];
      if last.None? then acc else Some(AppendTo(acc, last.value))
  }

  /**
   No non-nil error gives nil, exactly one is returned unchanged, and two or
   more become one multierror holding all of them in order.
   */
  lemma {:induction false} AppendAllNonNil(errs: seq<ErrorSlot>)
    ensures AppendAll(errs).None? <==> AllNil(errs)
    ensures var n := NonNil(errs);
      AppendAll(errs) ==
        if |n| == 0 then None
        else if |n| == 1 then Some(Single(n[0]))
        else Some(Multi(n))
    decreases |errs|
  {
    if |errs| > 0 {
      var init, last := errs[..|errs| - 1], errs[|errs| - 1];
      AppendAllNonNil(init);
      var n := NonNil(init);
      if last.Some? {
        assert NonNil(errs) == n + [last.value];
        assert AppendAll(errs) == Some(AppendTo(AppendAll(init), last.value));
        if |n| == 1 {
          assert NonNil(errs) == [n[0], last.value];
        }
      } else {
        assert NonNil(errs) == n;
      }
    }
  }

  /** The text `Error()` returns: a multierror renders through the formatter installed on it. */
  function Message(e: Aggregate, format: seq<string> -> string): string {
    match e
    case Single(m) => m
    case Multi(es) => format(es)
  }
}

=== FILE: format_errors.dfy ===
/**
 The generated loader's default rendering of a multierror: messages are grouped
 by text and counted, the groups are ordered by descending count, and each is
 printed as one bullet line under a header giving the total number of errors.
 Grouping goes through a Go map and ordering through `sort.Slice`, neither of
 which fixes the order of equal counts; `Groups` picks one order, and
 `DefaultFormatErrorsLayout` states the result for every admissible order.
 */
module FormatErrors {
  import opened Decimal

  /** One group: a message and how many times it occurred. */
  datatype Occurrence = Occurrence(error: string, occurrences: nat)

  /** The messages of a list of groups. */
  function ErrorsOf(os: seq<Occurrence>): set<string> {
    if |os| == 0 then {} else {os[0].error} + ErrorsOf(os[1..])
  }

  /** The sum of the counts. */
  function Total(os: seq<Occurrence>): nat {
    if |os| == 0 then 0 else os[0].occurrences + Total(os[1..])
  }

  /** The count recorded for message `e` (the first group holding it), or 0. */
  function Lookup(os: seq<Occurrence>, e: string): nat {
    if |os| == 0 then 0
    else if os[0].error == e then os[0].occurrences
    else Lookup(os[1..], e)
  }

  ghost predicate DistinctErrors(os: seq<Occurrence>) {
    forall i, j :: 0 <= i < j < |os| ==> os[i].error != os[j].error
  }

  ghost predicate Positive(os: seq<Occurrence>) {
    forall i :: 0 <= i < |os| ==> os[i].occurrences >= 1
  }

  /** Non-increasing order of count. */
  ghost predicate SortedByCount(os: seq<Occurrence>) {
    forall i, j :: 0 <= i < j < |os| ==> os[i].occurrences >= os[j].occurrences
  }

  /**
   What any run of the Go code may produce as the grouped list for `msgs`:
   one group per distinct message, carrying its number of occurrences, in
   non-increasing order of count. Equal counts may come in any order.
   */
  ghost predicate ValidGrouping(msgs: seq<string>, g: seq<Occurrence>) {
    && DistinctErrors(g)
    && SortedByCount(g)
    && (forall i :: 0 <= i < |g| ==> g[i].occurrences == multiset(msgs)[g[i].error])
    && (forall m :: m in msgs <==> m in ErrorsOf(g))
  }

  lemma {:induction false} ErrorsOfContains(os: seq<Occurrence>, i: nat)
    requires i < |os|
    ensures os[i].error in ErrorsOf(os)
  {
    if i > 0 {
      ErrorsOfContains(os[1..], i - 1);
    }
  }

  lemma {:induction false} ErrorsOfWitness(os: seq<Occurrence>, m: string) returns (i: nat)
    requires m in ErrorsOf(os)
    ensures i < |os| && os[i].error == m
  {
    if os[0].error == m {
      i := 0;
    } else {
      var k := ErrorsOfWitness(os[1..], m);
      i := k + 1;
    }
  }

  lemma {:induction false} ErrorsOfAbsent(os: seq<Occurrence>, m: string)
    requires forall i :: 0 <= i < |os| ==> os[i].error != m
    ensures m !in ErrorsOf(os)
  {
    if |os| > 0 {
      ErrorsOfAbsent(os[1..], m);
    }
  }

  /** A list headed by `x` has distinct messages iff its tail does and does not hold `x`'s message. */
  lemma DistinctCons(x: Occurrence, s: seq<Occurrence>)
    ensures DistinctErrors([x] + s) <==> DistinctErrors(s) && x.error !in ErrorsOf(s)
  {
    var xs := [x] + s;
    if DistinctErrors(xs) {
      assert DistinctErrors(s) by {
        forall i, j | 0 <= i < j < |s|
          ensures s[i].error != s[j].error
        {
          assert xs[i + 1] == s[i] && xs[j + 1] == s[j];
        }
      }
      forall i | 0 <= i < |s|
        ensures s[i].error != x.error
      {
        assert xs[0] == x && xs[i + 1] == s[i];
      }
      ErrorsOfAbsent(s, x.error);
    }
    if DistinctErrors(s) && x.error !in ErrorsOf(s) {
      forall i, j | 0 <= i < j < |xs|
        ensures xs[i].error != xs[j].error
      {
        ErrorsOfContains(s, j - 1);
        if i > 0 {
          assert xs[i] == s[i - 1] && xs[j] == s[j - 1];
        }
      }
    }
  }

  /** `countsByErrors[m]++` on a list of groups. */
  function Bump(t: seq<Occurrence>, m: string): seq<Occurrence> {
    if |t| == 0 then [Occurrence(m, 1)]
    else if t[0].error == m then [t[0].(occurrences := t[0].occurrences + 1)] + t[1..]
    else [t[0]] + Bump(t[1..], m)
  }

  /** Bumping `m` adds one occurrence of `m`, and only of `m`. */
  lemma {:induction false} BumpSpec(t: seq<Occurrence>, m: string)
    ensures ErrorsOf(Bump(t, m)) == ErrorsOf(t) + {m}
    ensures Total(Bump(t, m)) == Total(t) + 1
    ensures forall e :: Lookup(Bump(t, m), e) == Lookup(t, e) + (if e == m then 1 else 0)
  {
    if |t| > 0 && t[0].error != m {
      BumpSpec(t[1..], m);
    }
  }

  /** Bumping keeps one group per message. */
  lemma {:induction false} BumpDistinct(t: seq<Occurrence>, m: string)
    requires DistinctErrors(t)
    ensures DistinctErrors(Bump(t, m))
  {
    if |t| > 0 {
      DistinctCons(t[0], t[1..]);
      assert t == [t[0]] + t[1..];
      if t[0].error == m {
        DistinctCons(t[0].(occurrences := t[0].occurrences + 1), t[1..]);
      } else {
        BumpDistinct(t[1..], m);
        BumpSpec(t[1..], m);
        DistinctCons(t[0], Bump(t[1..], m));
      }
    }
  }

  lemma {:induction false} BumpPositive(t: seq<Occurrence>, m: string)
    requires Positive(t)
    ensures Positive(Bump(t, m))
  {
    if |t| > 0 && t[0].error != m {
      BumpPositive(t[1..], m);
    }
  }

  /** The counting loop over all messages, in input order. */
  function Tally(msgs: seq<string>): seq<Occurrence>
    decreases |msgs|
  {
    if |msgs| == 0 then [] else Bump(Tally(msgs[..|msgs| - 1]), msgs[|msgs| - 1])
  }

  /** The tally has one group per distinct message, counting its occurrences. */
  lemma {:induction false} TallySpec(msgs: seq<string>)
    ensures DistinctErrors(Tally(msgs)) && Positive(Tally(msgs))
    ensures forall m :: m in msgs <==> m in ErrorsOf(Tally(msgs))
    ensures forall e :: Lookup(Tally(msgs), e) == multiset(msgs)[e]
    ensures Total(Tally(msgs)) == |msgs|
    decreases |msgs|
  {
    if |msgs| > 0 {
      var init, last := msgs[..|msgs| - 1], msgs[|msgs| - 1];
      assert msgs == init + [last];
      TallySpec(init);
      BumpSpec(Tally(init), last);
      BumpDistinct(Tally(init), last);
      BumpPositive(Tally(init), last);
    }
  }

  /** In a list with distinct messages, `Lookup` finds each group's own count. */
  lemma {:induction false} LookupDistinct(os: seq<Occurrence>, i: nat)
    requires DistinctErrors(os) && i < |os|
    ensures Lookup(os, os[i].error) == os[i].occurrences
  {
    if i > 0 {
      assert os == [os[0]] + os[1..];
      DistinctCons(os[0], os[1..]);
      LookupDistinct(os[1..], i - 1);
    }
  }

  /** Inserts `o` before the first group with a smaller count. */
  function Insert(o: Occurrence, s: seq<Occurrence>): seq<Occurrence> {
    if |s| == 0 then [o]
    else if o.occurrences >= s[0].occurrences then [o] + s
    else [s[0]] + Insert(o, s[1..])
  }

  /** Inserting adds exactly `o`: to the groups, to the messages and to the total. */
  lemma {:induction false} InsertSpec(o: Occurrence, s: seq<Occurrence>)
    ensures multiset(Insert(o, s)) == multiset(s) + multiset{o}
    ensures ErrorsOf(Insert(o, s)) == ErrorsOf(s) + {o.error}
    ensures Total(Insert(o, s)) == Total(s) + o.occurrences
  {
    if |s| > 0 && o.occurrences < s[0].occurrences {
      InsertSpec(o, s[1..]);
      assert s == [s[0]] + s[1..];
    }
  }

  lemma {:induction false} InsertSorted(o: Occurrence, s: seq<Occurrence>)
    requires SortedByCount(s)
    ensures SortedByCount(Insert(o, s))
  {
    if |s| > 0 && o.occurrences < s[0].occurrences {
      InsertSorted(o, s[1..]);
      InsertSpec(o, s[1..]);
      var r := Insert(o, s);
      var tail := Insert(o, s[1..]);
      assert r == [s[0]] + tail;
      forall j | 0 <= j < |tail|
        ensures s[0].occurrences >= tail[j].occurrences
      {
        assert tail[j] in multiset(s[1..]) + multiset{o};
      }
    }
  }

  lemma {:induction false} InsertDistinct(o: Occurrence, s: seq<Occurrence>)
    requires DistinctErrors(s) && o.error !in ErrorsOf(s)
    ensures DistinctErrors(Insert(o, s))
  {
    if |s| == 0 || o.occurrences >= s[0].occurrences {
      DistinctCons(o, s);
    } else {
      assert s == [s[0]] + s[1..];
      DistinctCons(s[0], s[1..]);
      InsertDistinct(o, s[1..]);
      InsertSpec(o, s[1..]);
      DistinctCons(s[0], Insert(o, s[1..]));
    }
  }

  /** Orders groups by non-increasing count (one of the orders `sort.Slice` may produce). */
  function Sort(os: seq<Occurrence>): seq<Occurrence> {
    if |os| == 0 then [] else Insert(os[0], Sort(os[1..]))
  }

  /** Sorting permutes the groups, so it keeps their messages and their total. */
  lemma {:induction false} SortSpec(os: seq<Occurrence>)
    ensures multiset(Sort(os)) == multiset(os)
    ensures ErrorsOf(Sort(os)) == ErrorsOf(os)
    ensures Total(Sort(os)) == Total(os)
  {
    if |os| > 0 {
      SortSpec(os[1..]);
      InsertSpec(os[0], Sort(os[1..]));
      assert os == [os[0]] + os[1..];
    }
  }

  /** Sorting yields non-increasing order of count. */
  lemma {:induction false} SortSorted(os: seq<Occurrence>)
    ensures SortedByCount(Sort(os))
  {
    if |os| > 0 {
      SortSorted(os[1..]);
      InsertSorted(os[0], Sort(os[1..]));
    }
  }

  /** Sorting keeps the messages distinct. */
  lemma {:induction false} SortDistinct(os: seq<Occurrence>)
    requires DistinctErrors(os)
    ensures DistinctErrors(Sort(os))
  {
    if |os| > 0 {
      assert os == [os[0]] + os[1..];
      DistinctCons(os[0], os[1..]);
      SortDistinct(os[1..]);
      SortSpec(os[1..]);
      InsertDistinct(os[0], Sort(os[1..]));
    }
  }

  /** The grouped, counted and ordered list the default formatter prints. */
  function Groups(msgs: seq<string>): seq<Occurrence> {
    Sort(Tally(msgs))
  }

  /** `Groups` is one of the admissible groupings, a permutation of the counts, and its counts add up to the input length. */
  lemma GroupsValid(msgs: seq<string>)
    ensures ValidGrouping(msgs, Groups(msgs))
    ensures multiset(Groups(msgs)) == multiset(Tally(msgs))
    ensures Total(Groups(msgs)) == |msgs|
  {
    var t := Tally(msgs);
    var g := Groups(msgs);
    TallySpec(msgs);
    SortSpec(t);
    SortSorted(t);
    SortDistinct(t);
    forall i | 0 <= i < |g|
      ensures g[i].occurrences == multiset(msgs)[g[i].error]
    {
      assert g[i] in multiset(t);
      var k :| 0 <= k < |t| && t[k] == g[i];
      LookupDistinct(t, k);
    }
  }

  /** In a list with distinct messages, no group occurs twice. */
  lemma {:induction false} DistinctMultiplicity(g: seq<Occurrence>, o: Occurrence)
    requires DistinctErrors(g)
    ensures multiset(g)[o] == if o in g then 1 else 0
  {
    if |g| > 0 {
      assert g == [g[0]] + g[1..];
      DistinctCons(g[0], g[1..]);
      DistinctMultiplicity(g[1..], o);
    }
  }

  /**
   Admissible groupings differ only in order: any two are permutations of
   each other, so the rendered lines are fixed up to the order of equal counts.
   */
  lemma ValidGroupingUnique(msgs: seq<string>, g1: seq<Occurrence>, g2: seq<Occurrence>)
    requires ValidGrouping(msgs, g1) && ValidGrouping(msgs, g2)
    ensures multiset(g1) == multiset(g2)
  {
    forall o | o in g1
      ensures o in g2
    {
      var i :| 0 <= i < |g1| && g1[i] == o;
      ErrorsOfContains(g1, i);
      var j := ErrorsOfWitness(g2, o.error);
      assert g2[j] == o;
    }
    forall o | o in g2
      ensures o in g1
    {
      var j :| 0 <= j < |g2| && g2[j] == o;
      ErrorsOfContains(g2, j);
      var i := ErrorsOfWitness(g1, o.error);
      assert g1[i] == o;
    }
    forall o
      ensures multiset(g1)[o] == multiset(g2)[o]
    {
      DistinctMultiplicity(g1, o);
      DistinctMultiplicity(g2, o);
    }
  }

  function Header(n: nat): string {
    Itoa(n) + " errors occurred:\n"
  }

  function Line(o: Occurrence): string {
    " * " + Itoa(o.occurrences) + " " + o.error + "\n"
  }

  function Lines(os: seq<Occurrence>): string {
    if |os| == 0 then "" else Line(os[0]) + Lines(os[1..])
  }

  /** `defaultFormatErrors`. */
  function DefaultFormatErrors(errors: seq<string>): string {
    if |errors| == 1 then errors[0]
    else Header(|errors|) + Lines(Groups(errors)) + "\n"
  }

  /**
   A single error is rendered as its own message. Otherwise the text is the
   header with the total count, one bullet line per group of some admissible
   grouping, and a closing newline.
   */
  lemma DefaultFormatErrorsLayout(errors: seq<string>)
    ensures |errors| == 1 ==> DefaultFormatErrors(errors) == errors[0]
    ensures |errors| != 1 ==>
      exists g :: ValidGrouping(errors, g) && Total(g) == |errors| &&
        DefaultFormatErrors(errors) == Header(|errors|) + Lines(g) + "\n"
  {
    GroupsValid(errors);
  }
}

=== FILE: loader.dfy ===
/**
 The generic loader of `data_loader.go`. Every region the Go code runs under
 the loader's mutex is one function from state to state. A batch is named by
 its index in `batches`, the list of every batch ever created; `current` is the
 loader's `batch` pointer. The `done` channel is modelled by `result`: it is
 closed exactly when `result` is present. Goroutines that the code spawns are
 recorded as flags (`timerPending` for `startTimer`, and `closing` without a
 result for a pending `end`) and run later as separate steps.
 */
module Loader {
  import opened Wrappers
  import opened Errors

  /** What the fetch collaborator returns. Nothing ties these lengths to the number of keys. */
  datatype FetchResult<V> = FetchResult(data: seq<Option<V>>, errors: seq<ErrorSlot>)

  datatype Batch<K, V> = Batch(
    keys: seq<K>,
    closing: bool,                   // set once, when the batch reaches `maxBatch`
    timerPending: bool,              // `startTimer` was spawned and has not yet taken the lock
    result: Option<FetchResult<V>>)  // present once `end` has run; stands for the closed `done` channel
  {
    /** Still able to take keys: neither closed for capacity nor dispatched. */
    predicate Open() {
      !closing && result.None?
    }
  }

  datatype State<K(==), V> = State(
    maxBatch: nat,                   // 0 means no limit
    cache: map<K, Option<V>>,        // a cached `nil` is `None`
    current: Option<nat>,            // the batch new keys join, if any
    batches: seq<Batch<K, V>>,
    fetchLog: seq<nat>)              // the batches handed to `fetch`, in call order
  {
    predicate WellFormed() {
      current.Some? ==> current.value < |batches|
    }
  }

  /** The function `LoadThunk` returns: an already-resolved value, or a wait on position `pos` of a batch. */
  datatype Thunk<K, V> = Ready(value: Option<V>) | Waiting(batch: nat, pos: nat, key: K)

  datatype Attached<K(==), V> = Attached(state: State<K, V>, thunk: Thunk<K, V>)
  datatype Indexed<K(==), V> = Indexed(state: State<K, V>, pos: nat)
  datatype Resolved<K(==), V> = Resolved(state: State<K, V>, value: Option<V>, err: Option<Joined>)
  datatype Primed<K(==), V> = Primed(state: State<K, V>, added: bool)

  /** `NewDataLoader`: no cache entries and no batch. The wait duration only times the environment's timer step. */
  function NewDataLoader<K(==), V>(maxBatch: nat): State<K, V> {
    State(maxBatch, map[], None, [], [])
  }

  /** The position of the first occurrence of `key`, scanning from the front as the loop in `keyIndex` does. */
  function IndexOf<K(==)>(keys: seq<K>, key: K): (r: Option<nat>)
    ensures r.None? <==> key !in keys
    ensures r.Some? ==> r.value < |keys| && keys[r.value] == key && key !in keys[..r.value]
  {
    if |keys| == 0 then None
    else if keys[0] == key then Some(0)
    else
      match IndexOf(keys[1..], key)
      case None => None
      case Some(i) =>
        assert keys[..i + 1] == [keys[0]] + keys[1..][..i];
        Some(i + 1)
  }

  /** `unsafeSet`: the cache (created on first use in Go) maps `key` to `value`. */
  function UnsafeSet<K(==), V>(s: State<K, V>, key: K, value: Option<V>): (r: State<K, V>)
    ensures r.cache.Keys == s.cache.Keys + {key} && r.cache[key] == value
    ensures forall k :: k in s.cache && k != key ==> r.cache[k] == s.cache[k]
    ensures r.(cache := s.cache) == s
  {
    s.(cache := s.cache[key := value])
  }

  /**
   `keyIndex` on batch `id`: an existing key keeps its position; a new key is
   appended, starts the batch's timer if it is the first, and closes and
   detaches the batch if it brings it to `maxBatch` keys.
   */
  function KeyIndex<K(==), V>(s: State<K, V>, id: nat, key: K): (r: Indexed<K, V>)
    requires id < |s.batches|
    ensures |r.state.batches| == |s.batches|
    ensures r.pos < |r.state.batches[id].keys| && r.state.batches[id].keys[r.pos] == key
    ensures key in s.batches[id].keys ==> r.state == s && key !in s.batches[id].keys[..r.pos]
    ensures key !in s.batches[id].keys ==>
      && r.pos == |s.batches[id].keys|
      && r.state.batches[id].keys == s.batches[id].keys + [key]
      && r.state.batches[id].result == s.batches[id].result
      && r.state.batches[id].timerPending == (r.pos == 0 || s.batches[id].timerPending)
      && (r.state.batches[id].closing <==>
            s.batches[id].closing || (s.maxBatch != 0 && r.pos + 1 >= s.maxBatch))
      && (r.state.current != s.current ==>
            r.state.current.None? && !s.batches[id].closing && r.state.batches[id].closing)
      && (!s.batches[id].closing && r.state.batches[id].closing ==> r.state.current.None?)
    ensures forall i :: 0 <= i < |s.batches| && i != id ==> r.state.batches[i] == s.batches[i]
    ensures r.state.cache == s.cache && r.state.fetchLog == s.fetchLog && r.state.maxBatch == s.maxBatch
  {
    var b := s.batches[id];
    match IndexOf(b.keys, key)
    case Some(i) => Indexed(s, i)
    case None =>
      var pos := |b.keys|;
      var b' := b.(keys := b.keys + [key], timerPending := pos == 0 || b.timerPending);
      if s.maxBatch != 0 && pos >= s.maxBatch - 1 && !b'.closing then
        Indexed(s.(batches := s.batches[id := b'.(closing := true)], current := None), pos)
      else
        Indexed(s.(batches := s.batches[id := b']), pos)
  }

  /**
   `LoadThunk`'s locked region. A cached key yields its value and changes
   nothing. Otherwise the key joins the current batch, which is created first
   when there is none, and the thunk records the batch and the key's position.
   */
  function LoadThunk<K(==), V>(s: State<K, V>, key: K): (r: Attached<K, V>)
    requires s.WellFormed()
    ensures r.state.WellFormed()
    ensures key in s.cache ==> r == Attached(s, Ready(s.cache[key]))
    ensures key !in s.cache ==>
      && r.thunk.Waiting? && r.thunk.key == key
      && r.thunk.batch < |r.state.batches|
      && r.thunk.pos < |r.state.batches[r.thunk.batch].keys|
      && r.state.batches[r.thunk.batch].keys[r.thunk.pos] == key
      && (s.current.Some? ==> r.thunk.batch == s.current.value)
      && (s.current.None? ==> r.thunk.batch == |s.batches|)
    ensures r.state.cache == s.cache && r.state.fetchLog == s.fetchLog && r.state.maxBatch == s.maxBatch
  {
    if key in s.cache then Attached(s, Ready(s.cache[key]))
    else
      var s1 :=
        if s.current.None?
        then s.(batches := s.batches + [Batch([], false, false, None)], current := Some(|s.batches|))
        else s;
      var id := s1.current.value;
      var ix := KeyIndex(s1, id, key);
      Attached(ix.state, Waiting(id, ix.pos, key))
  }

  /** `end`: calls `fetch` once with the batch's keys and stores what it returns, closing `done`. */
  function Dispatch<K(==), V>(s: State<K, V>, id: nat, fetch: seq<K> -> FetchResult<V>): (r: State<K, V>)
    requires id < |s.batches|
    ensures |r.batches| == |s.batches|
    ensures r.batches[id].result == Some(fetch(s.batches[id].keys))
    ensures r.batches[id].keys == s.batches[id].keys && r.batches[id].closing == s.batches[id].closing
    ensures r.batches[id].timerPending == s.batches[id].timerPending
    ensures r.fetchLog == s.fetchLog + [id]
    ensures forall i :: 0 <= i < |s.batches| && i != id ==> r.batches[i] == s.batches[i]
    ensures r.cache == s.cache && r.current == s.current && r.maxBatch == s.maxBatch
  {
    var b := s.batches[id];
    s.(batches := s.batches[id := b.(result := Some(fetch(b.keys)))], fetchLog := s.fetchLog + [id])
  }

  /**
   `startTimer` after its sleep. A batch already closed for capacity is left to
   its own `end`. Otherwise the loader lets go of the batch and dispatches it
   before releasing the lock.
   */
  function TimerFire<K(==), V>(s: State<K, V>, id: nat, fetch: seq<K> -> FetchResult<V>): (r: State<K, V>)
    requires id < |s.batches| && s.batches[id].timerPending
    ensures |r.batches| == |s.batches| && !r.batches[id].timerPending
    ensures r.batches[id].keys == s.batches[id].keys && r.batches[id].closing == s.batches[id].closing
    ensures s.batches[id].closing ==>
      r.fetchLog == s.fetchLog && r.current == s.current && r.batches[id].result == s.batches[id].result
    ensures !s.batches[id].closing ==>
      && r.fetchLog == s.fetchLog + [id] && r.current.None?
      && r.batches[id].result == Some(fetch(s.batches[id].keys))
    ensures forall i :: 0 <= i < |s.batches| && i != id ==> r.batches[i] == s.batches[i]
    ensures r.cache == s.cache && r.maxBatch == s.maxBatch
  {
    var b := s.batches[id].(timerPending := false);
    var s1 := s.(batches := s.batches[id := b]);
    if b.closing then s1 else Dispatch(s1.(current := None), id, fetch)
  }

  /** The value a waiting thunk reads at its position, or `nil` when the data slice is too short. */
  function ReadPosition<V>(res: FetchResult<V>, pos: nat): (v: Option<V>)
    ensures pos < |res.data| ==> v == res.data[pos]
    ensures pos >= |res.data| ==> v.None?
  {
    if pos < |res.data| then res.data[pos] else None
  }

  /** A thunk can be called once its batch's `done` channel is closed. */
  predicate Resolvable<K(==), V>(s: State<K, V>, t: Thunk<K, V>) {
    t.Waiting? ==> t.batch < |s.batches| && s.batches[t.batch].result.Some?
  }

  /**
   Calling a thunk. A waiting thunk reads its position and joins every non-nil
   error of the whole batch. Any error is returned alongside the value and
   leaves the cache alone; without one the value is cached under the key.
   */
  function Resolve<K(==), V>(s: State<K, V>, t: Thunk<K, V>): (r: Resolved<K, V>)
    requires Resolvable(s, t)
    ensures t.Ready? ==> r == Resolved(s, t.value, None)
    ensures t.Waiting? ==>
      var res := s.batches[t.batch].result.value;
      && r.value == ReadPosition(res, t.pos)
      && (r.err.Some? <==> !AllNil(res.errors))
      && (r.err.Some? ==> r.err.value.errors == NonNil(res.errors) && r.state == s)
      && (r.err.None? ==> r.state == UnsafeSet(s, t.key, r.value))
  {
    match t
    case Ready(v) => Resolved(s, v, None)
    case Waiting(id, pos, key) =>
      var res := s.batches[id].result.value;
      var data := ReadPosition(res, pos);
      var errs := JoinAll(res.errors);
      JoinAllNonNil(res.errors);
      if errs.Some? then Resolved(s, data, errs) else Resolved(UnsafeSet(s, key, data), data, None)
  }

  /** `Prime`: stores the value only when the key is absent, and says whether it did. */
  function Prime<K(==), V>(s: State<K, V>, key: K, value: V): (r: Primed<K, V>)
    ensures r.added <==> key !in s.cache
    ensures r.added ==> r.state == UnsafeSet(s, key, Some(value))
    ensures !r.added ==> r.state == s
  {
    if key in s.cache then Primed(s, false) else Primed(UnsafeSet(s, key, Some(value)), true)
  }

  /** `Clear`: removes the key from the cache, if present, and nothing else. */
  function Clear<K(==), V>(s: State<K, V>, key: K): (r: State<K, V>)
    ensures r.cache.Keys == s.cache.Keys - {key}
    ensures forall k :: k in r.cache ==> r.cache[k] == s.cache[k]
    ensures r.(cache := s.cache) == s
  {
    s.(cache := s.cache - {key})
  }

  datatype AttachedAll<K(==), V> = AttachedAll(state: State<K, V>, thunks: seq<Thunk<K, V>>)

  /** The first loop of `LoadAll` and `LoadAllThunk`: one `LoadThunk` per key, in order. */
  function AttachAll<K(==), V>(s: State<K, V>, keys: seq<K>): (r: AttachedAll<K, V>)
    requires s.WellFormed()
    ensures r.state.WellFormed()
    ensures |r.thunks| == |keys|
    ensures forall i :: 0 <= i < |keys| && keys[i] in s.cache ==> r.thunks[i] == Ready(s.cache[keys[i]])
    ensures forall i :: 0 <= i < |keys| && keys[i] !in s.cache ==> r.thunks[i].Waiting? && r.thunks[i].key == keys[i]
    ensures r.state.cache == s.cache && r.state.fetchLog == s.fetchLog && r.state.maxBatch == s.maxBatch
    decreases |keys|
  {
    if |keys| == 0 then AttachedAll(s, [])
    else
      var a := AttachAll(s, keys[..|keys| - 1]);
      var b := LoadThunk(a.state, keys[|keys| - 1]);
      AttachedAll(b.state, a.thunks + [b.thunk])
  }

  datatype ResolvedAll<K(==), V> = ResolvedAll(state: State<K, V>, values: seq<Option<V>>, errs: seq<Option<Joined>>)

  /** The value a thunk yields, which depends only on its batch's stored result. */
  function ThunkValue<K(==), V>(s: State<K, V>, t: Thunk<K, V>): Option<V>
    requires Resolvable(s, t)
  {
    match t
    case Ready(v) => v
    case Waiting(id, pos, _) => ReadPosition(s.batches[id].result.value, pos)
  }

  /** The error a thunk yields: the join of its whole batch's non-nil errors. */
  function ThunkError<K(==), V>(s: State<K, V>, t: Thunk<K, V>): Option<Joined>
    requires Resolvable(s, t)
  {
    match t
    case Ready(_) => None
    case Waiting(id, _, _) => JoinAll(s.batches[id].result.value.errors)
  }

  /**
   The second loop of `LoadAll` (and the body of the thunk `LoadAllThunk`
   returns): the thunks are called in order and their results collected
   position by position.
   */
  function ResolveAll<K(==), V>(s: State<K, V>, thunks: seq<Thunk<K, V>>): (r: ResolvedAll<K, V>)
    requires forall i :: 0 <= i < |thunks| ==> Resolvable(s, thunks[i])
    ensures |r.values| == |thunks| && |r.errs| == |thunks|
    ensures r.state.batches == s.batches && r.state.current == s.current && r.state.fetchLog == s.fetchLog
    ensures forall i :: 0 <= i < |thunks| ==> r.values[i] == ThunkValue(s, thunks[i])
    ensures forall i :: 0 <= i < |thunks| ==> r.errs[i] == ThunkError(s, thunks[i])
    decreases |thunks|
  {
    if |thunks| == 0 then ResolvedAll(s, [], [])
    else
      var a := ResolveAll(s, thunks[..|thunks| - 1]);
      var t := thunks[|thunks| - 1];
      assert Resolvable(a.state, t) by {
        assert Resolvable(s, thunks[|thunks| - 1]);
      }
      var b := Resolve(a.state, t);
      ResolvedAll(b.state, a.values + [b.value], a.errs + [b.err])
  }
}

=== FILE: machine.dfy ===
/**
 The loader as a state machine. Each step is one mutex-protected region of
 `data_loader.go`, or a spawned goroutine taking its turn: a caller attaching a
 key, a batch's timer firing, a capacity-closed batch's `end` running, a
 thunk being called, `Prime`, or `Clear`. The environment may take any
 enabled step at any time. `Valid` is the invariant every reachable state
 keeps; the lemmas below prove it and derive the loader's guarantees from it.
 */
module Machine {
  import opened Wrappers
  import opened Errors
  import opened Loader

  datatype Step<K, V> =
    | Attach(key: K)
    | Fire(id: nat)
    | End(id: nat)
    | Complete(thunk: Thunk<K, V>)
    | PrimeKey(key: K, value: V)
    | ClearKey(key: K)

  /** A thunk handed out by `LoadThunk` names its batch and the position where its key sits. */
  predicate ThunkValid<K(==), V>(s: State<K, V>, t: Thunk<K, V>) {
    t.Waiting? ==>
      && t.batch < |s.batches|
      && t.pos < |s.batches[t.batch].keys|
      && s.batches[t.batch].keys[t.pos] == t.key
  }

  /**
   When a step can happen: a timer only for a batch whose `startTimer` has not
   yet run, an `end` only for a batch closed for capacity and not yet fetched,
   and a thunk call only once its batch is done.
   */
  predicate Enabled<K(==), V>(s: State<K, V>, step: Step<K, V>) {
    && s.WellFormed()
    && match step
       case Attach(_) => true
       case Fire(id) => id < |s.batches| && s.batches[id].timerPending
       case End(id) => id < |s.batches| && s.batches[id].closing && s.batches[id].result.None?
       case Complete(t) => ThunkValid(s, t) && Resolvable(s, t)
       case PrimeKey(_, _) => true
       case ClearKey(_) => true
  }

  function Next<K(==), V>(s: State<K, V>, step: Step<K, V>, fetch: seq<K> -> FetchResult<V>): State<K, V>
    requires Enabled(s, step)
  {
    match step
    case Attach(key) => LoadThunk(s, key).state
    case Fire(id) => TimerFire(s, id, fetch)
    case End(id) => Dispatch(s, id, fetch)
    case Complete(t) => Resolve(s, t).state
    case PrimeKey(key, value) => Prime(s, key, value).state
    case ClearKey(key) => Clear(s, key)
  }

  ghost predicate DistinctKeys<K>(keys: seq<K>) {
    forall i, j :: 0 <= i < j < |keys| ==> keys[i] != keys[j]
  }

  /** What holds of every batch: nonempty, distinct keys, within the cap, and a stored result that is `fetch` of its keys. */
  ghost predicate BatchValid<K, V>(maxBatch: nat, b: Batch<K, V>, fetch: seq<K> -> FetchResult<V>) {
    && 1 <= |b.keys|
    && DistinctKeys(b.keys)
    && (maxBatch != 0 ==> |b.keys| <= maxBatch)
    && (b.Open() ==> b.timerPending && (maxBatch != 0 ==> |b.keys| < maxBatch))
    && (!b.closing && b.result.Some? ==> !b.timerPending)
    && (b.result.Some? ==> b.result.value == fetch(b.keys))
  }

  /**
   The invariant: every batch is valid, the open batch is exactly the current
   one (so at most one batch takes keys), and the fetch log names each
   dispatched batch exactly once.
   */
  ghost predicate Valid<K, V>(s: State<K, V>, fetch: seq<K> -> FetchResult<V>) {
    && s.WellFormed()
    && (forall i :: 0 <= i < |s.batches| ==> BatchValid(s.maxBatch, s.batches[i], fetch))
    && (forall i :: 0 <= i < |s.batches| ==> (s.batches[i].Open() <==> s.current == Some(i)))
    && DistinctKeys(s.fetchLog)
    && (forall j :: 0 <= j < |s.fetchLog| ==> s.fetchLog[j] < |s.batches|)
    && (forall i :: 0 <= i < |s.batches| ==> (i in s.fetchLog <==> s.batches[i].result.Some?))
  }

  /**
   How a later state relates to an earlier one: batches are only added, keys
   only appended, and only to the batch that was current; a batch once
   detached stays detached; a stored result never changes; fetch calls are
   only appended.
   */
  ghost predicate Extends<K, V>(s: State<K, V>, s': State<K, V>) {
    && s'.maxBatch == s.maxBatch
    && |s.batches| <= |s'.batches|
    && s.fetchLog <= s'.fetchLog
    && (forall i :: 0 <= i < |s.batches| ==> s.batches[i].keys <= s'.batches[i].keys)
    && (forall i :: 0 <= i < |s.batches| && s.current != Some(i) ==>
          s'.batches[i].keys == s.batches[i].keys && s'.current != Some(i))
    && (forall i :: 0 <= i < |s.batches| && s.batches[i].result.Some? ==>
          s'.batches[i].result == s.batches[i].result)
  }

  lemma NewDataLoaderValid<K, V>(maxBatch: nat, fetch: seq<K> -> FetchResult<V>)
    ensures Valid(NewDataLoader<K, V>(maxBatch), fetch)
  {
  }

  lemma ExtendsTransitive<K, V>(s1: State<K, V>, s2: State<K, V>, s3: State<K, V>)
    requires Extends(s1, s2) && Extends(s2, s3)
    ensures Extends(s1, s3)
  {
    forall i | 0 <= i < |s1.batches|
      ensures s1.batches[i].keys <= s3.batches[i].keys
    {
      assert s2.batches[i].keys <= s3.batches[i].keys;
    }
  }

  /** A thunk stays valid however the state evolves: its key keeps its position. */
  lemma ExtendsKeepsThunk<K, V>(s: State<K, V>, s': State<K, V>, t: Thunk<K, V>)
    requires Extends(s, s') && ThunkValid(s, t)
    ensures ThunkValid(s', t)
  {
    if t.Waiting? {
      assert s.batches[t.batch].keys <= s'.batches[t.batch].keys;
    }
  }

  /**
   Attaching keeps the invariant. On a miss the key lands in the open batch
   (a fresh one if none is open); an appended key is new to that batch; and
   the append that reaches `maxBatch` closes and detaches the batch.
   */
  lemma {:induction false} LoadThunkValid<K, V>(s: State<K, V>, key: K, fetch: seq<K> -> FetchResult<V>)
    requires Valid(s, fetch)
    ensures Valid(LoadThunk(s, key).state, fetch)
    ensures Extends(s, LoadThunk(s, key).state)
    ensures ThunkValid(LoadThunk(s, key).state, LoadThunk(s, key).thunk)
  {
    if key !in s.cache {
      var s1 :=
        if s.current.None?
        then s.(batches := s.batches + [Batch([], false, false, None)], current := Some(|s.batches|))
        else s;
      var id := s1.current.value;
      var b := s1.batches[id];
      var ix := KeyIndex(s1, id, key);
      var r := ix.state;
      assert LoadThunk(s, key).state == r;
      assert b.Open() && (s.current.Some? ==> b == s.batches[id]);
      assert s.current.None? ==> b.keys == [] && id == |s.batches|;
      if key in b.keys {
        assert r == s1 == s;
      } else {
        var b' := r.batches[id];
        assert b'.keys == b.keys + [key];
        assert DistinctKeys(b'.keys);
        assert BatchValid(r.maxBatch, b', fetch);
        forall i | 0 <= i < |r.batches|
          ensures BatchValid(r.maxBatch, r.batches[i], fetch)
          ensures r.batches[i].Open() <==> r.current == Some(i)
          ensures i in r.fetchLog <==> r.batches[i].result.Some?
        {
          if i != id {
            assert r.batches[i] == s.batches[i];
          }
        }
      }
    }
  }

  /** A timer firing keeps the invariant, and dispatches only a batch that was not yet fetched. */
  lemma {:induction false} TimerFireValid<K, V>(s: State<K, V>, id: nat, fetch: seq<K> -> FetchResult<V>)
    requires Valid(s, fetch) && id < |s.batches| && s.batches[id].timerPending
    ensures Valid(TimerFire(s, id, fetch), fetch)
    ensures Extends(s, TimerFire(s, id, fetch))
    ensures !s.batches[id].closing ==> id !in s.fetchLog && s.current == Some(id)
  {
    var r := TimerFire(s, id, fetch);
    assert BatchValid(s.maxBatch, s.batches[id], fetch);
    forall i | 0 <= i < |r.batches|
      ensures BatchValid(r.maxBatch, r.batches[i], fetch)
      ensures r.batches[i].Open() <==> r.current == Some(i)
      ensures i in r.fetchLog <==> r.batches[i].result.Some?
    {
      if i != id {
        assert r.batches[i] == s.batches[i];
      }
    }
  }

  /** A capacity-closed batch's `end` keeps the invariant; it is the first and only fetch of that batch. */
  lemma {:induction false} DispatchValid<K, V>(s: State<K, V>, id: nat, fetch: seq<K> -> FetchResult<V>)
    requires Valid(s, fetch) && id < |s.batches| && s.batches[id].closing && s.batches[id].result.None?
    ensures Valid(Dispatch(s, id, fetch), fetch)
    ensures Extends(s, Dispatch(s, id, fetch))
    ensures id !in s.fetchLog
  {
    var r := Dispatch(s, id, fetch);
    forall i | 0 <= i < |r.batches|
      ensures BatchValid(r.maxBatch, r.batches[i], fetch)
      ensures r.batches[i].Open() <==> r.current == Some(i)
      ensures i in r.fetchLog <==> r.batches[i].result.Some?
    {
      if i != id {
        assert r.batches[i] == s.batches[i];
      }
    }
  }

  /** Every enabled step keeps the invariant and extends the state. */
  lemma NextValid<K, V>(s: State<K, V>, step: Step<K, V>, fetch: seq<K> -> FetchResult<V>)
    requires Valid(s, fetch) && Enabled(s, step)
    ensures Valid(Next(s, step, fetch), fetch)
    ensures Extends(s, Next(s, step, fetch))
  {
    match step
    case Attach(key) => LoadThunkValid(s, key, fetch);
    case Fire(id) => TimerFireValid(s, id, fetch);
    case End(id) => DispatchValid(s, id, fetch);
    case Complete(t) =>
    case PrimeKey(key, value) =>
    case ClearKey(key) =>
  }

  /** A schedule every step of which is enabled when its turn comes. */
  predicate RunEnabled<K(==), V>(s: State<K, V>, steps: seq<Step<K, V>>, fetch: seq<K> -> FetchResult<V>)
    decreases |steps|
  {
    |steps| == 0 || (Enabled(s, steps[0]) && RunEnabled(Next(s, steps[0], fetch), steps[1..], fetch))
  }

  /** The state after taking `steps` in order. */
  function Run<K(==), V>(s: State<K, V>, steps: seq<Step<K, V>>, fetch: seq<K> -> FetchResult<V>): State<K, V>
    requires RunEnabled(s, steps, fetch)
    decreases |steps|
  {
    if |steps| == 0 then s else Run(Next(s, steps[0], fetch), steps[1..], fetch)
  }

  lemma {:induction false} RunValid<K, V>(s: State<K, V>, steps: seq<Step<K, V>>, fetch: seq<K> -> FetchResult<V>)
    requires Valid(s, fetch) && RunEnabled(s, steps, fetch)
    ensures Valid(Run(s, steps, fetch), fetch)
    ensures Extends(s, Run(s, steps, fetch))
    decreases |steps|
  {
    if |steps| > 0 {
      var s1 := Next(s, steps[0], fetch);
      NextValid(s, steps[0], fetch);
      RunValid(s1, steps[1..], fetch);
      ExtendsTransitive(s, s1, Run(s1, steps[1..], fetch));
    }
  }

  /** Every state a fresh loader can reach, under any schedule, satisfies the invariant. */
  lemma ReachableValid<K, V>(maxBatch: nat, steps: seq<Step<K, V>>, fetch: seq<K> -> FetchResult<V>)
    requires RunEnabled(NewDataLoader(maxBatch), steps, fetch)
    ensures Valid(Run(NewDataLoader(maxBatch), steps, fetch), fetch)
  {
    NewDataLoaderValid<K, V>(maxBatch, fetch);
    RunValid(NewDataLoader(maxBatch), steps, fetch);
  }

  /**
   `Load`: `LoadThunk`, then whatever the environment does meanwhile (`steps`:
   other callers, timers, `end`s), then calling the thunk once its batch is
   done. A cached key is answered from the cache with no error and no fetch.
   */
  function Load<K(==), V>(s: State<K, V>, key: K, steps: seq<Step<K, V>>, fetch: seq<K> -> FetchResult<V>): (r: Resolved<K, V>)
    requires s.WellFormed() && RunEnabled(LoadThunk(s, key).state, steps, fetch)
    requires Resolvable(Run(LoadThunk(s, key).state, steps, fetch), LoadThunk(s, key).thunk)
    ensures key in s.cache ==>
      r.value == s.cache[key] && r.err.None? && r.state == Run(s, steps, fetch)
  {
    var a := LoadThunk(s, key);
    Resolve(Run(a.state, steps, fetch), a.thunk)
  }

  /**
   `LoadAll`: every key is attached first, the environment runs, and the
   thunks are then called in input order. `LoadAllThunk` is the same two
   phases with the second deferred into the returned function.
   */
  function LoadAll<K(==), V>(s: State<K, V>, keys: seq<K>, steps: seq<Step<K, V>>, fetch: seq<K> -> FetchResult<V>): (r: ResolvedAll<K, V>)
    requires s.WellFormed() && RunEnabled(AttachAll(s, keys).state, steps, fetch)
    requires forall i :: 0 <= i < |keys| ==>
      Resolvable(Run(AttachAll(s, keys).state, steps, fetch), AttachAll(s, keys).thunks[i])
    ensures |r.values| == |keys| && |r.errs| == |keys|
    ensures forall i :: 0 <= i < |keys| && keys[i] in s.cache ==> r.values[i] == s.cache[keys[i]] && r.errs[i].None?
  {
    var a := AttachAll(s, keys);
    ResolveAll(Run(a.state, steps, fetch), a.thunks)
  }
}

=== FILE: properties.dfy ===
/**
 Guarantees of the loader derived from the state machine's invariant:
 coalescing and capacity limits, exactly-once dispatch, alignment of results
 with keys, the batch-wide error policy, and the cache operations; followed by
 the concrete runs that `data_loader_test.go` exercises.
 */
module Properties {
  import opened Wrappers
  import opened Errors
  import opened Loader
  import opened Machine
  import opened Batching

  /** At most one batch takes keys at any time, and it is the current one. */
  lemma AtMostOneOpenBatch<K, V>(s: State<K, V>, fetch: seq<K> -> FetchResult<V>)
    requires Valid(s, fetch)
    ensures forall i, j ::
      (0 <= i < |s.batches| && 0 <= j < |s.batches| && s.batches[i].Open() && s.batches[j].Open()) ==> i == j
    ensures s.current.Some? ==> s.batches[s.current.value].Open()
  {
  }

  /**
   No batch is handed to `fetch` twice, and every fetch call receives
   pairwise distinct keys, never more than `maxBatch` of them.
   */
  lemma FetchCallsWellFormed<K, V>(s: State<K, V>, fetch: seq<K> -> FetchResult<V>)
    requires Valid(s, fetch)
    ensures forall j, k :: 0 <= j < k < |s.fetchLog| ==> s.fetchLog[j] != s.fetchLog[k]
    ensures forall j :: 0 <= j < |s.fetchLog| ==>
      var keys := s.batches[s.fetchLog[j]].keys;
      DistinctKeys(keys) && 1 <= |keys| && (s.maxBatch != 0 ==> |keys| <= s.maxBatch)
  {
    forall j | 0 <= j < |s.fetchLog|
      ensures BatchValid(s.maxBatch, s.batches[s.fetchLog[j]], fetch)
    {
    }
  }

  /**
   `fetch` is called by exactly two kinds of step: a timer firing on a batch
   not closed for capacity, and a capacity-closed batch's `end`. Each call is
   the first for its batch. Every other step leaves the fetch log alone.
   */
  lemma {:induction false} StepFetchesAtMostOnce<K, V>(s: State<K, V>, step: Step<K, V>, fetch: seq<K> -> FetchResult<V>)
    requires Valid(s, fetch) && Enabled(s, step)
    ensures (step.Fire? && !s.batches[step.id].closing) || step.End? ==>
      && Next(s, step, fetch).fetchLog == s.fetchLog + [step.id]
      && step.id !in s.fetchLog
      && Next(s, step, fetch).batches[step.id].result == Some(fetch(s.batches[step.id].keys))
    ensures !((step.Fire? && !s.batches[step.id].closing) || step.End?) ==>
      Next(s, step, fetch).fetchLog == s.fetchLog
  {
    match step
    case Fire(id) => TimerFireValid(s, id, fetch);
    case End(id) => DispatchValid(s, id, fetch);
    case _ =>
  }

  /** A batch not yet fetched always has its timer or its `end` still to run, so it will be fetched. */
  lemma EveryBatchDispatchable<K, V>(s: State<K, V>, i: nat, fetch: seq<K> -> FetchResult<V>)
    requires Valid(s, fetch) && i < |s.batches| && s.batches[i].result.None?
    ensures Enabled(s, Fire(i)) || Enabled(s, End(i))
  {
    assert BatchValid(s.maxBatch, s.batches[i], fetch);
  }

  /** Once a batch is detached from the loader, no schedule adds a key to it. */
  lemma DetachedBatchFrozen<K, V>(s: State<K, V>, steps: seq<Step<K, V>>, fetch: seq<K> -> FetchResult<V>, i: nat)
    requires Valid(s, fetch) && RunEnabled(s, steps, fetch)
    requires i < |s.batches| && s.current != Some(i)
    ensures i < |Run(s, steps, fetch).batches|
    ensures Run(s, steps, fetch).batches[i].keys == s.batches[i].keys
    ensures Run(s, steps, fetch).current != Some(i)
  {
    RunValid(s, steps, fetch);
  }

  /**
   A waiting thunk reads, from the result `fetch` returned for its batch's
   keys, the entry at the very position where its own key was passed.
   */
  lemma ResolveAligned<K, V>(s: State<K, V>, t: Thunk<K, V>, fetch: seq<K> -> FetchResult<V>)
    requires Valid(s, fetch) && ThunkValid(s, t) && Resolvable(s, t) && t.Waiting?
    ensures var keys := s.batches[t.batch].keys;
      && keys[t.pos] == t.key
      && Resolve(s, t).value == ReadPosition(fetch(keys), t.pos)
  {
    assert BatchValid(s.maxBatch, s.batches[t.batch], fetch);
  }

  /**
   The thunk `LoadThunk` returns stays aligned with its key under every later
   schedule: whenever it is called, it yields `fetch`'s entry for that key.
   */
  lemma ThunkAlignedAfterRun<K, V>(s: State<K, V>, key: K, steps: seq<Step<K, V>>, fetch: seq<K> -> FetchResult<V>)
    requires Valid(s, fetch) && RunEnabled(LoadThunk(s, key).state, steps, fetch)
    ensures var a := LoadThunk(s, key);
      var s' := Run(a.state, steps, fetch);
      && ThunkValid(s', a.thunk)
      && (a.thunk.Waiting? && Resolvable(s', a.thunk) ==>
            var keys := s'.batches[a.thunk.batch].keys;
            keys[a.thunk.pos] == key && Resolve(s', a.thunk).value == ReadPosition(fetch(keys), a.thunk.pos))
  {
    var a := LoadThunk(s, key);
    LoadThunkValid(s, key, fetch);
    RunValid(a.state, steps, fetch);
    var s' := Run(a.state, steps, fetch);
    ExtendsKeepsThunk(a.state, s', a.thunk);
    if a.thunk.Waiting? && Resolvable(s', a.thunk) {
      ResolveAligned(s', a.thunk, fetch);
    }
  }

  /** After a successful call of a thunk, loading the same key is a cache hit: no batch, no fetch. */
  lemma CacheHitAfterSuccess<K, V>(s: State<K, V>, t: Thunk<K, V>)
    requires s.WellFormed() && Resolvable(s, t) && t.Waiting? && Resolve(s, t).err.None?
    ensures var r := Resolve(s, t);
      LoadThunk(r.state, t.key) == Attached(r.state, Ready(r.value))
  {
  }

  /**
   Errors are batch-wide: every thunk of a batch receives the same error, it is
   non-nil iff some entry of the batch's error slice is, and then no thunk of
   the batch writes to the cache, whatever its own entry held.
   */
  lemma BatchErrorShared<K, V>(s: State<K, V>, t1: Thunk<K, V>, t2: Thunk<K, V>)
    requires Resolvable(s, t1) && Resolvable(s, t2) && t1.Waiting? && t2.Waiting? && t1.batch == t2.batch
    ensures Resolve(s, t1).err == Resolve(s, t2).err
    ensures Resolve(s, t1).err.Some? <==> !AllNil(s.batches[t1.batch].result.value.errors)
    ensures Resolve(s, t1).err.Some? ==> Resolve(s, t1).state == s && Resolve(s, t2).state == s
  {
  }

  /**
   Priming an absent key makes the next load return the primed value without
   a batch; priming it again reports false and changes nothing.
   */
  lemma PrimeThenLoad<K, V>(s: State<K, V>, key: K, v: V, w: V)
    requires s.WellFormed() && key !in s.cache
    ensures var p := Prime(s, key, v);
      && p.added
      && LoadThunk(p.state, key) == Attached(p.state, Ready(Some(v)))
      && Prime(p.state, key, w) == Primed(p.state, false)
  {
  }

  /**
   After `Clear`, a load of that key misses the cache and joins a batch,
   whose dispatch will fetch the key again; other keys stay cached.
   */
  lemma ClearThenLoad<K, V>(s: State<K, V>, key: K, other: K)
    requires s.WellFormed() && other != key && other in s.cache
    ensures var c := Clear(s, key);
      var a := LoadThunk(c, key);
      && a.thunk.Waiting? && a.thunk.key == key
      && a.state.batches[a.thunk.batch].keys[a.thunk.pos] == key
      && LoadThunk(c, other) == Attached(c, Ready(s.cache[other]))
  {
  }

  /** `LoadAll`'s first loop keeps the invariant and hands back one valid thunk per key. */
  lemma {:induction false} AttachAllValid<K, V>(s: State<K, V>, keys: seq<K>, fetch: seq<K> -> FetchResult<V>)
    requires Valid(s, fetch)
    ensures var r := AttachAll(s, keys);
      && Valid(r.state, fetch)
      && Extends(s, r.state)
      && forall i :: 0 <= i < |keys| ==> ThunkValid(r.state, r.thunks[i])
    decreases |keys|
  {
    if |keys| > 0 {
      var a := AttachAll(s, keys[..|keys| - 1]);
      AttachAllValid(s, keys[..|keys| - 1], fetch);
      var key := keys[|keys| - 1];
      var b := LoadThunk(a.state, key);
      LoadThunkValid(a.state, key, fetch);
      ExtendsTransitive(s, a.state, b.state);
      var r := AttachAll(s, keys);
      assert r.state == b.state && r.thunks == a.thunks + [b.thunk];
      forall i | 0 <= i < |keys|
        ensures ThunkValid(r.state, r.thunks[i])
      {
        if i < |a.thunks| {
          assert r.thunks[i] == a.thunks[i];
          ExtendsKeepsThunk(a.state, b.state, a.thunks[i]);
        }
      }
    }
  }

  /** Collecting valid thunks in order yields, for each, `fetch`'s entry at its key's position. */
  lemma ResolveAllAligned<K, V>(s: State<K, V>, thunks: seq<Thunk<K, V>>, fetch: seq<K> -> FetchResult<V>)
    requires Valid(s, fetch)
    requires forall i :: 0 <= i < |thunks| ==> ThunkValid(s, thunks[i]) && Resolvable(s, thunks[i])
    ensures forall i :: 0 <= i < |thunks| && thunks[i].Waiting? ==>
      ResolveAll(s, thunks).values[i] == ReadPosition(fetch(s.batches[thunks[i].batch].keys), thunks[i].pos)
  {
    forall i | 0 <= i < |thunks| && thunks[i].Waiting?
      ensures BatchValid(s.maxBatch, s.batches[thunks[i].batch], fetch)
    {
    }
  }

  /**
   `LoadAll`: whatever the schedule between attaching and collecting, the
   i-th value is the cached value of `keys[i]`, or `fetch`'s entry at the
   position where `keys[i]` was passed to it.
   */
  lemma LoadAllAligned<K, V>(s: State<K, V>, keys: seq<K>, steps: seq<Step<K, V>>, fetch: seq<K> -> FetchResult<V>)
    requires Valid(s, fetch)
    requires RunEnabled(AttachAll(s, keys).state, steps, fetch)
    requires forall i :: 0 <= i < |keys| ==>
      Resolvable(Run(AttachAll(s, keys).state, steps, fetch), AttachAll(s, keys).thunks[i])
    ensures var a := AttachAll(s, keys);
      var s' := Run(a.state, steps, fetch);
      var r := LoadAll(s, keys, steps, fetch);
      forall i :: 0 <= i < |keys| && keys[i] !in s.cache ==>
        && a.thunks[i].Waiting?
        && ThunkValid(s', a.thunks[i])
        && s'.batches[a.thunks[i].batch].keys[a.thunks[i].pos] == keys[i]
        && r.values[i] == ReadPosition(fetch(s'.batches[a.thunks[i].batch].keys), a.thunks[i].pos)
  {
    var a := AttachAll(s, keys);
    AttachAllValid(s, keys, fetch);
    RunValid(a.state, steps, fetch);
    var s' := Run(a.state, steps, fetch);
    forall i | 0 <= i < |keys|
      ensures ThunkValid(s', a.thunks[i])
    {
      ExtendsKeepsThunk(a.state, s', a.thunks[i]);
    }
    ResolveAllAligned(s', a.thunks, fetch);
  }

  /**
   `Load` of a key that is not cached returns `fetch`'s entry at the position
   where that key was passed to it, whatever the schedule in between.
   */
  lemma LoadAligned<K, V>(s: State<K, V>, key: K, steps: seq<Step<K, V>>, fetch: seq<K> -> FetchResult<V>)
    requires Valid(s, fetch) && key !in s.cache
    requires RunEnabled(LoadThunk(s, key).state, steps, fetch)
    requires Resolvable(Run(LoadThunk(s, key).state, steps, fetch), LoadThunk(s, key).thunk)
    ensures var t := LoadThunk(s, key).thunk;
      var s' := Run(LoadThunk(s, key).state, steps, fetch);
      && t.Waiting? && ThunkValid(s', t)
      && s'.batches[t.batch].keys[t.pos] == key
      && Load(s, key, steps, fetch).value == ReadPosition(fetch(s'.batches[t.batch].keys), t.pos)
  {
    ThunkAlignedAfterRun(s, key, steps, fetch);
  }

  /**
   Three keys against a cap of two (the test of the batch limit): keys 0 and 1
   fill the first batch, which closes, and key 2 opens a second; the two
   fetch calls receive `[0, 1]` and `[2]`.
   */
  lemma CapacitySplitScenario(fetch: seq<int> -> FetchResult<string>)
    ensures
      var a0 := LoadThunk(NewDataLoader<int, string>(2), 0);
      var a1 := LoadThunk(a0.state, 1);
      var a2 := LoadThunk(a1.state, 2);
      var s3 := Dispatch(a2.state, 0, fetch);
      var s4 := TimerFire(s3, 0, fetch);
      var s5 := TimerFire(s4, 1, fetch);
      && [a0.thunk, a1.thunk, a2.thunk] == [Waiting(0, 0, 0), Waiting(0, 1, 1), Waiting(1, 0, 2)]
      && |a2.state.batches| == 2 && a2.state.current == Some(1)
      && a2.state.batches[0].keys == [0, 1] && a2.state.batches[0].closing
      && a2.state.batches[1].keys == [2] && !a2.state.batches[1].closing
      && s4.fetchLog == [0]
      && s5.fetchLog == [0, 1]
      && s5.batches[0].result == Some(fetch([0, 1]))
      && s5.batches[1].result == Some(fetch([2]))
      && s5.current.None?
  {
    var a0 := LoadThunk(NewDataLoader<int, string>(2), 0);
    assert |a0.state.batches| == 1 && a0.state.batches[0].keys == [0] && a0.state.current == Some(0);
    assert a0.state.batches[0].timerPending && !a0.state.batches[0].closing;
    var a1 := LoadThunk(a0.state, 1);
    assert a1.state.batches[0].keys == [0] + [1] == [0, 1];
    assert a1.state.batches[0].closing && a1.state.current.None?;
    var a2 := LoadThunk(a1.state, 2);
    assert |a2.state.batches| == 2 && a2.state.batches[1].keys == [] + [2] == [2];
    var s3 := Dispatch(a2.state, 0, fetch);
    var s4 := TimerFire(s3, 0, fetch);
    var s5 := TimerFire(s4, 1, fetch);
  }

  /**
   The same capacity split within one `LoadAll` call: with `maxBatch` 2, the
   attach loop over 0, 1, 2 fills batch 0 with `[0, 1]`, which closes, and
   starts batch 1 with `[2]`. The first two rounds are stated on their own.
   */
  lemma AttachAllSplitScenario()
    ensures var r := AttachAll(NewDataLoader<int, string>(2), [0, 1, 2]);
      && |r.state.batches| == 2
      && r.state.batches[0].keys == [0, 1] && r.state.batches[0].closing
      && r.state.batches[1].keys == [2] && !r.state.batches[1].closing
      && r.state.current == Some(1)
      && r.thunks == [Waiting(0, 0, 0), Waiting(0, 1, 1), Waiting(1, 0, 2)]
  {
    var s := NewDataLoader<int, string>(2);
    SplitSecondRound();
    AttachAllSnoc(s, [0, 1], 2);
    assert [0, 1] + [2] == [0, 1, 2];
    var a := AttachAll(s, [0, 1]);
    var b := LoadThunk(a.state, 2);
    assert |b.state.batches| == 2 && b.state.batches[1].keys == [] + [2] == [2];
    assert a.thunks + [b.thunk] == [Waiting(0, 0, 0), Waiting(0, 1, 1), Waiting(1, 0, 2)];
  }

  lemma SplitFirstRound()
    ensures var a := AttachAll(NewDataLoader<int, string>(2), [0]);
      && |a.state.batches| == 1 && a.state.batches[0].keys == [0]
      && !a.state.batches[0].closing && a.state.batches[0].result.None?
      && a.state.current == Some(0) && a.state.maxBatch == 2 && a.state.cache == map[]
      && a.thunks == [Waiting(0, 0, 0)]
  {
    var s := NewDataLoader<int, string>(2);
    AttachAllSnoc(s, [], 0);
    assert [] + [0] == [0];
  }

  lemma SplitSecondRound()
    ensures var a := AttachAll(NewDataLoader<int, string>(2), [0, 1]);
      && |a.state.batches| == 1 && a.state.batches[0].keys == [0, 1]
      && a.state.batches[0].closing && a.state.current.None?
      && a.state.maxBatch == 2 && a.state.cache == map[]
      && a.thunks == [Waiting(0, 0, 0), Waiting(0, 1, 1)]
  {
    var s := NewDataLoader<int, string>(2);
    SplitFirstRound();
    AttachAllSnoc(s, [0], 1);
    assert [0] + [1] == [0, 1];
    var a := AttachAll(s, [0]);
    var b := LoadThunk(a.state, 1);
    assert b.state.batches[0].keys == [0] + [1] == [0, 1];
  }

  /**
   One key, one timer (the single-key test): `fetch` is called once with
   `[0]`; the caller gets its entry; with no error it is cached, so a second
   load is a hit and fetches nothing.
   */
  lemma SingleKeyScenario(fetch: seq<int> -> FetchResult<string>)
    requires AllNil(fetch([0]).errors)
    ensures
      var a := LoadThunk(NewDataLoader<int, string>(10), 0);
      var s1 := TimerFire(a.state, 0, fetch);
      var r := Resolve(s1, a.thunk);
      && a.thunk == Waiting(0, 0, 0)
      && s1.fetchLog == [0] && s1.batches[0].keys == [0]
      && r.value == ReadPosition(fetch([0]), 0) && r.err.None?
      && LoadThunk(r.state, 0) == Attached(r.state, Ready(r.value))
  {
    var a := LoadThunk(NewDataLoader<int, string>(10), 0);
    assert |a.state.batches| == 1 && a.state.batches[0].keys == [] + [0] == [0] && a.state.current == Some(0);
    assert a.state.batches[0].timerPending && !a.state.batches[0].closing;
    var s1 := TimerFire(a.state, 0, fetch);
    assert s1.batches[0].result == Some(fetch([0]));
    JoinAllNonNil(fetch([0]).errors);
  }

  /**
   A failing fetch (the error-handling test): the caller gets a nil value and
   a non-nil error, and nothing is cached.
   */
  lemma FailingFetchScenario(fetch: seq<int> -> FetchResult<string>)
    requires fetch([42]) == FetchResult([None], [Some("boom")])
    ensures
      var a := LoadThunk(NewDataLoader<int, string>(10), 42);
      var s1 := TimerFire(a.state, 0, fetch);
      var r := Resolve(s1, a.thunk);
      && r.value.None? && r.err == Some(Joined(["boom"]))
      && r.state == s1 && 42 !in r.state.cache
  {
    var a := LoadThunk(NewDataLoader<int, string>(10), 42);
    assert |a.state.batches| == 1 && a.state.batches[0].keys == [] + [42] == [42] && a.state.current == Some(0);
    assert a.state.batches[0].timerPending && !a.state.batches[0].closing;
    var s1 := TimerFire(a.state, 0, fetch);
    assert s1.batches[0].result == Some(fetch([42]));
    var errs: seq<ErrorSlot> := [Some("boom")];
    assert JoinAll(errs) == Some(Joined(["boom"])) by {
      assert errs[..0] == [];
      assert JoinAll(errs[..0]).None?;
      assert Joined([]).errors + ["boom"] == ["boom"];
    }
  }
}

=== FILE: user_loader.dfy ===
/**
 The generated `UserLoader` of `example/generated_user_loader.go`: the same
 batching state machine instantiated at `string` keys and `User` values, plus
 a configurable error formatter and multierror aggregation in its thunks.
 */
module UserLoader {
  import opened Wrappers
  import opened Errors
  import opened FormatErrors
  import opened Loader

  /** `example.User`. */
  datatype User = User(id: string, name: string)

  /**
   The fields of `dataloader.Config` the constructor reads. `Fetch` is the
   parameter of the dispatch steps and `Wait` only times the timer step.
   */
  datatype Config = Config(maxBatch: nat, formatErrors: Option<seq<string> -> string>)

  datatype UserLoader = UserLoader(formatErrors: seq<string> -> string, state: State<string, User>)

  /** `NewUserLoader`: an empty loader whose formatter is the configured one, or `defaultFormatErrors` if none is set. */
  function NewUserLoader(config: Config): (l: UserLoader)
    ensures l.state == NewDataLoader(config.maxBatch)
    ensures config.formatErrors.None? ==> l.formatErrors == DefaultFormatErrors
    ensures config.formatErrors.Some? ==> l.formatErrors == config.formatErrors.value
  {
    UserLoader(config.formatErrors.GetOr(DefaultFormatErrors), NewDataLoader(config.maxBatch))
  }

  /** An error handed to a caller, with the text its `Error()` method returns. */
  datatype UserError = UserError(aggregate: Aggregate, text: string)

  datatype UserResolved = UserResolved(loader: UserLoader, value: Option<User>, err: Option<UserError>)

  /**
   Calling a `UserLoader` thunk. The batch's non-nil errors are aggregated: none
   gives a nil error and a cache write, one is returned as-is, and several
   become a multierror rendered by the loader's formatter.
   */
  function ResolveUser(l: UserLoader, t: Thunk<string, User>): (r: UserResolved)
    requires Resolvable(l.state, t)
    ensures r.loader.formatErrors == l.formatErrors
    ensures r.err.Some? ==> r.err.value.text == Message(r.err.value.aggregate, l.formatErrors)
    ensures t.Waiting? ==>
      var errs := l.state.batches[t.batch].result.value.errors;
      && (r.err.None? <==> AllNil(errs))
      && (r.err.Some? && |NonNil(errs)| == 1 ==> r.err.value.aggregate == Single(NonNil(errs)[0]))
      && (r.err.Some? && |NonNil(errs)| > 1 ==> r.err.value.aggregate == Multi(NonNil(errs)))
      && r.value == ReadPosition(l.state.batches[t.batch].result.value, t.pos)
      && (r.err.None? ==> r.loader.state == UnsafeSet(l.state, t.key, r.value))
      && (r.err.Some? ==> r.loader == l)
    ensures t.Ready? ==> r.loader == l && r.value == t.value && r.err.None?
  {
    match t
    case Ready(v) => UserResolved(l, v, None)
    case Waiting(id, pos, key) =>
      var res := l.state.batches[id].result.value;
      var data := ReadPosition(res, pos);
      AppendAllNonNil(res.errors);
      match AppendAll(res.errors)
      case Some(e) => UserResolved(l, data, Some(UserError(e, Message(e, l.formatErrors))))
      case None => UserResolved(l.(state := UnsafeSet(l.state, key, data)), data, None)
  }

  /**
   The generated thunk behaves as the generic one: the same value, the same
   cache effect, and an error exactly when the generic loader reports one.
   */
  lemma ResolveUserAgrees(l: UserLoader, t: Thunk<string, User>)
    requires Resolvable(l.state, t)
    ensures ResolveUser(l, t).loader.state == Resolve(l.state, t).state
    ensures ResolveUser(l, t).value == Resolve(l.state, t).value
    ensures ResolveUser(l, t).err.None? <==> Resolve(l.state, t).err.None?
  {
    if t.Waiting? {
      var res := l.state.batches[t.batch].result.value;
      AppendAllNonNil(res.errors);
      JoinAllNonNil(res.errors);
    }
  }

  /**
   With no formatter configured, a batch with two or more errors reports the
   default rendering: the header with their number, one line per message
   group of some admissible grouping, and a closing newline.
   */
  lemma DefaultMultiErrorText(maxBatch: nat, s: State<string, User>, t: Thunk<string, User>)
    requires Resolvable(s, t) && t.Waiting?
    requires |NonNil(s.batches[t.batch].result.value.errors)| >= 2
    ensures var l := NewUserLoader(Config(maxBatch, None)).(state := s);
      var msgs := NonNil(s.batches[t.batch].result.value.errors);
      var r := ResolveUser(l, t);
      && r.err.Some? && r.err.value.aggregate == Multi(msgs)
      && exists g :: ValidGrouping(msgs, g) && Total(g) == |msgs| &&
           r.err.value.text == Header(|msgs|) + Lines(g) + "\n"
  {
    var msgs := NonNil(s.batches[t.batch].result.value.errors);
    DefaultFormatErrorsLayout(msgs);
  }
}

=== FILE: wrappers.dfy ===
/** Optional values: `None` stands for Go's `nil` pointer, `nil` error or a missing map entry. */
module Wrappers {

  datatype Option<+T> = None | Some(value: T) {

    /** The non-nil value, or `default` when it is nil (as `if x == nil { x = default }`). */
    function GetOr(default: T): T {
      match this
      case Some(v) => v
      case None => default
    }
  }
}
